=== FILE: README.md ===
# E-government portal: request review workflow, in Dafny

This project models the core of the e-government portal's Express/Sequelize
backend. That core is the workflow through which a citizen's service request
is filed, claimed by an officer, decided, and paid. Around it sit:

- the role guards that decide who reaches each handler;
- account registration, login and the password-reset token;
- the `Request` and `User` schemas with their enumerations, defaults and
  deletion cascades.

Each route handler is a pure function from the session, its inputs and the
store to the branch it took plus the store after it. The checks run in the
order the handler runs them. The store holds the `requests`, `users`,
`services`, `departments` and `documents` tables as maps keyed by serial id,
together with the next serial of each table.

Modules, one per file:

- `Wrappers` holds `Option`.
- `Text` holds the JavaScript string semantics the handlers rely on:
  - `String.prototype.trim` with ECMAScript's whitespace set;
  - `parseInt(_, 10)`;
  - the unanchored regular-expression test;
  - lower-casing and `ILIKE '%…%'`.
- `Domain` holds the records, the enumerations and their defaults, the
  well-formedness of the store, `findOne`, and the deletion cascades.
- `Guards` holds `ensureRole`, the mount guards, `ensureOfficer`,
  `ensureCitizen`, and the `/` and `/profile` redirects.
- `Listing` holds the newest-first selection behind both dashboards.
- `Officer` holds the officer router: the dashboard, opening (claiming) a
  request, the status update, and the officer's edit of their own profile.
- `Citizen` holds the citizen router: the upload filter, applying, the
  payment page, payment confirmation, the dashboard, and the router's own
  registration form.
- `Auth` holds the public router: registration, login, forgot-password and
  reset-password.
- `Workflow` holds every state-changing request of the modelled handlers,
  dispatched through the mount guards. It proves the invariants and the monotonicity of requests over any
  sequence of requests.

Modelling choices:

- **Lookups without `ORDER BY`.** Such a query (`findOne`) may return any
  matching row. The model returns the matching row with the lowest id.
- **Form fields.** These are strings, and an empty field is `""`.
- **Password hashes.** bcrypt is an injective constructor `Bcrypt(secret)`,
  so `bcrypt.compare` is equality with it.
- **Clock and random token.** The clock is a millisecond count passed in as
  a parameter. The random reset token is also a parameter, required to be
  40 lower-case hex digits.
- **Database rejections.** A foreign key violation, the `isEmail` validator
  and a duplicate key are outcomes. They land in each handler's `catch`
  branch.
- **Missing joined rows.** A handler that dereferences a joined row that is
  not there throws a `TypeError`. This is a server-error outcome.

The model follows the code, including where it departs from a guarded review
workflow:

- **No guarded claim.** Opening a request claims it with a plain
  read-then-write. There is no compare-and-set and no "already assigned"
  result: a second officer who opens a claimed request is simply shown the
  current reviewer (`Officer.SecondOfficerIsShownTheReviewer`).
- **Status update on a submitted request.** Asking for `approved` on a
  `submitted` request is refused as "not the reviewer". The dedicated
  "must go under review first" branch comes later in the handler. It is
  unreachable while every reviewed request has left `submitted`
  (`Officer.MustReviewFirstIsUnreachable`).
- **Under review to under review.** Asking for `under_review` on a request
  already under review is accepted and changes nothing.
- **Payment does not gate review.** A request can be decided whatever its
  payment state (`Officer.DecisionIgnoresPayment`).
- **Payment confirmation.** It checks neither ownership nor prior payment
  state, and it leaves the review status alone.
- **Payment page fee.** The page reads the service's current fee, not the
  amount recorded on the request (`Citizen.PaymentPageShowsLiveFee`).
- **Heads of department.** They pass the officer router's own guard but are
  stopped by the `ensureRole('officer')` mount in front of it.
- **Officer profile edit.** The name, address and job title are stored as
  sent, without the trimming registration applies. An officer can change
  their address, so an account does not keep its address over time; only the
  unique column keeps addresses distinct (`Officer.EditProfileKeepsInvariants`).
- **Deleting a reviewer.** This sets `reviewed_by` to null. A request under
  review then has no reviewer (`Domain.DeleteReviewerOrphansReview`), and
  no handler can ever move it again (`Officer.OrphanedReviewIsStuck`).

## Model

| member | source | states |
|---|---|---|
| Text.Trim | Backend/routes/authRoutes.js:51-56 | the result is the input with its leading and trailing ECMAScript whitespace removed, and neither of its ends is whitespace |
| Text.TrimIdempotent | Backend/routes/authRoutes.js:153 | trimming an already trimmed address changes nothing, so the login lookup sees the address as registration stored it |
| Text.TrimEmptyIffBlank | Backend/routes/authRoutes.js:58 | a trimmed field is empty exactly when the field was blank, which is what the required-field test refuses |
| Text.ContainsIffOccurs | Backend/routes/citizenRoutes.js:26-28 | the unanchored pattern test holds exactly when the word occurs at some position of the text |
| Text.ParseInt10 | Backend/routes/authRoutes.js:68 | `parseInt(_, 10)` reads a number exactly when, after leading whitespace, an optional sign is followed by at least one digit; trailing text is ignored |
| Text.ParseIntReadsShowInt | Backend/routes/authRoutes.js:68 | a department id written in decimal, followed by any non-digit text, is read back as that id |
| Domain.ParseRole | Backend/models/User.js:46-50 | the role enumeration: exactly the four role names are accepted, each naming its own role |
| Domain.ParseStatus | Backend/models/Request.js:9-13 | the status enumeration: exactly the four status names are accepted, each naming its own status |
| Domain.ParsePaymentStatus | Backend/models/Request.js:26-30 | the payment enumeration: exactly `pending`, `paid` and `failed` are accepted |
| Domain.WellFormedResolvesDepartment | Backend/models/Request.js:44-50 | with the foreign keys in place, every request resolves to a department |
| Domain.FindUser | Backend/routes/authRoutes.js:296-301 | `findOne` finds the lowest matching id in range, and finds nothing only when no row in range matches |
| Domain.FindOneUser | Backend/routes/authRoutes.js:335-340 | in a well-formed store, `findOne` over the users finds a user exactly when some user satisfies the condition |
| Domain.UserByEmail | Backend/models/User.js:34-41 | the lookup by address finds a user with that address; with unique addresses it finds the one user registered under it |
| Domain.DeleteRequest | Backend/models/Request.js:66-71 | deleting a request removes it and its documents only; every other request, document, user, service and department is kept as it was, and the store stays well formed |
| Domain.DeleteService | Backend/models/Request.js:45-50 | deleting a service deletes exactly the requests for it and their documents; every other row is kept as it was, and the store stays well formed |
| Domain.DeleteUser | Backend/models/Request.js:52-64 | deleting a user deletes the requests the user filed and their documents, and clears the reviewer of the requests the user reviewed; nothing else changes on them, the other users, services and departments are kept, and the store stays well formed |
| Domain.DeleteReviewerOrphansReview | Backend/models/Request.js:59-64 | deleting the reviewer of a request under review leaves it under review with no reviewer, which breaks the review invariant |
| Guards.MountsAdmitTheirRole | Backend/App.js:81-106 | `/citizen`, `/officer` and `/head` each admit exactly their own role; `/admin` admits any session; the public router admits everyone |
| Guards.OfficerHandlersReachOnlyOfficers | Backend/routes/officerRoutes.js:8-14 | behind both the mount and `ensureOfficer`, exactly officer sessions reach the officer handlers |
| Guards.HeadPassesOfficerGuardButNotMount | Backend/App.js:96 | a head-of-department session satisfies `ensureOfficer` but is refused at the `/officer` mount |
| Guards.CitizenHandlersReachOnlyCitizens | Backend/routes/citizenRoutes.js:37-43 | behind both the mount and `ensureCitizen`, exactly citizen sessions reach the citizen handlers |
| Guards.DashboardOf | Backend/routes/authRoutes.js:206-214 | every role lands on a dashboard served behind a mount that admits that role, and, except for the admin area, admits no other role |
| Guards.DashboardsDistinct | Backend/App.js:113-117 | no two roles share a dashboard |
| Guards.HomeRedirect | Backend/App.js:109-120 | `/` sends a session to the dashboard of exactly its role, behind a mount that admits it, and sends a missing session to the login page |
| Guards.ProfileRedirect | Backend/App.js:123-131 | `/profile` sends citizens and heads of department to their profiles, behind a mount that admits them, and everyone else to the login page |
| Listing.InsertNewestFirst | Backend/routes/citizenRoutes.js:153 | inserting into a newest-first list keeps it newest first and adds exactly the one request |
| Listing.InsertKeepsIdsDistinct | Backend/routes/citizenRoutes.js:139-154 | inserting a request not yet listed keeps every request listed once |
| Listing.SelectNewestFirst | Backend/routes/officerRoutes.js:39-66 | the selection lists every row satisfying the filter, once, nothing else, newest first |
| Officer.Open | Backend/routes/officerRoutes.js:90-160 | opening requires an officer session and an existing request; a request whose department cannot be resolved, or a claim by an officer whose user row is gone, is a server error; another department's request is refused; an unassigned submitted request of the officer's department is claimed by the officer; every other request of that department is shown unchanged |
| Officer.OpenNeverReassigns | Backend/routes/officerRoutes.js:137-149 | opening a request that has a reviewer changes nothing and shows that reviewer |
| Officer.UpdateTarget | Backend/routes/officerRoutes.js:168-172 | the accepted targets are exactly the status names other than `submitted` |
| Officer.UpdateStatus | Backend/routes/officerRoutes.js:163-226 | each refusal (login, target, not found, missing department, other department, not the reviewer, finalized, must review first) happens exactly under its condition in handler order; an accepted update writes only the target status, and a refused one changes nothing |
| Officer.UpdateLeavesFinalizedAlone | Backend/routes/officerRoutes.js:203-207 | an approved or rejected request is never changed by an update |
| Officer.UpdateKeepsReviewer | Backend/routes/officerRoutes.js:197-218 | an update never changes the reviewer and never sends a request back to `submitted` |
| Officer.UnderReviewAgainIsNoOp | Backend/routes/officerRoutes.js:209-218 | asking for `under_review` on a request under review leaves the store unchanged |
| Officer.DecisionIgnoresPayment | Backend/routes/officerRoutes.js:163-218 | the outcome of an update is the same whatever the request's payment state |
| Officer.MustReviewFirstIsUnreachable | Backend/routes/officerRoutes.js:197-213 | while every reviewed request has left `submitted`, the must-review-first branch is never taken, and no update moves a submitted request |
| Officer.OrphanedReviewIsStuck | Backend/routes/officerRoutes.js:137-201 | a request under review without a reviewer is never claimed by opening and never updated |
| Officer.ClaimThenDecide | Backend/routes/officerRoutes.js:137-218 | the officer who opens a claimable request becomes its reviewer, can then approve or reject it, and the decision is final |
| Officer.SecondOfficerIsShownTheReviewer | Backend/routes/officerRoutes.js:137-201 | after one officer's claim, a second officer's open changes nothing and shows the first as reviewer, and the second officer's update is refused |
| Officer.Dashboard | Backend/routes/officerRoutes.js:17-66 | the dashboard lists exactly the requests of the session's department matching the service, status and citizen-name filters, once each, newest first; an unknown status filter fails |
| Officer.EditProfile | Backend/routes/officerRoutes.js:251-279 | an officer's profile edit rewrites the name, address and job title of their own account as sent, and is refused exactly when the address is not e-mail shaped or another account holds it |
| Officer.EditProfileKeepsInvariants | Backend/routes/officerRoutes.js:265-270 | a profile edit keeps the store well formed and addresses unique, and touches no request, no other account, and neither the role nor the password |
| Citizen.ExtName | Backend/routes/citizenRoutes.js:27 | the extension is empty exactly when the name has no dot after its first character or is `..`; otherwise it is the name's end from its last dot |
| Citizen.ExtNameOfStemAndSuffix | Backend/routes/citizenRoutes.js:27 | a name made of a stem that does not start with a dot and a final dotted suffix without inner dots has that suffix as its extension |
| Citizen.CheckUpload | Backend/routes/citizenRoutes.js:22-34 | a file is refused for its type exactly when its lower-cased extension or its MIME type mentions none of `jpeg`, `jpg` and `pdf`, the type test coming before the 5 MiB limit; it is accepted exactly when both tests pass and it is within the limit |
| Citizen.UploadFilterIsSubstringTest | Backend/routes/citizenRoutes.js:26-28 | the type filter holds exactly when the extension and the MIME type each contain one of the three words at some position |
| Citizen.UpperCasePdfExtensionAccepted | Backend/routes/citizenRoutes.js:27 | a PDF named `scan.PDF` passes, because the extension is lower-cased before the test |
| Citizen.DotFileRefused | Backend/routes/citizenRoutes.js:27 | a file named `.pdf` has no extension and is refused whatever its MIME type |
| Citizen.Apply | Backend/routes/citizenRoutes.js:191-245 | the login, upload, missing-service, missing-document and unknown-service refusals each happen exactly under their condition in handler order; a request is filed exactly when a citizen sends an acceptable file and an existing service; it is submitted, unpaid, unreviewed, owned by the citizen, priced at the service fee, with the trimmed description, and its document row is stored with it |
| Citizen.AppliedRequestStartsAtDefaults | Backend/routes/citizenRoutes.js:222-229 | a filed request starts at the schema's default status and payment status |
| Citizen.ApplyStoresInWellFormedStore | Backend/routes/citizenRoutes.js:216-236 | in a well-formed store a valid filing always succeeds and keeps the store well formed |
| Citizen.PaymentPage | Backend/routes/citizenRoutes.js:248-265 | each outcome happens exactly under its condition: no citizen session, a missing request, a missing service (the caught error), a fee of at most 0, or else the page showing the service's current fee |
| Citizen.PaymentPageShowsLiveFee | Backend/routes/citizenRoutes.js:250-258 | after the service fee changes, the page asks for the new fee while the request keeps its recorded amount |
| Citizen.ConfirmPayment | Backend/routes/citizenRoutes.js:268-288 | confirming fails only for a missing request; otherwise it sets the payment status to paid and changes nothing else, whoever owns the request |
| Citizen.ConfirmIdempotent | Backend/routes/citizenRoutes.js:278-279 | confirming a second time, by anyone, changes nothing |
| Citizen.Dashboard | Backend/routes/citizenRoutes.js:136-166 | the citizen dashboard lists exactly the citizen's own requests, once each, newest first |
| Citizen.Register | Backend/routes/citizenRoutes.js:62-96 | the router's registration refuses a taken address and a chosen department that does not exist; it stores a citizen exactly when the address is free and e-mail shaped and the department, if any, exists; the row holds the address, name, hashed password and department as sent, and every other column is null |
| Citizen.RegisterKeepsEmailsUnique | Backend/routes/citizenRoutes.js:66-87 | this registration keeps addresses unique and the store well formed |
| Auth.FinalRole | Backend/routes/authRoutes.js:64-66 | the stored role is the requested role when it is one of the four, and citizen otherwise |
| Auth.UsableDepartmentReadsId | Backend/routes/authRoutes.js:68-76 | a department id written in decimal is read back as that id, and id 0 counts as no department |
| Auth.UsableDepartmentRefusesNonNumbers | Backend/routes/authRoutes.js:68-76 | a blank department field, or one that does not start with a number, gives no department |
| Auth.NewUser | Backend/routes/authRoutes.js:103-113 | the stored row has the trimmed name and address, the hashed password and the final role; the department is kept only for officers and heads, the trimmed job title only for officers, and national id, birth date and contact only for citizens |
| Auth.Register | Backend/routes/authRoutes.js:33-123 | each refusal (missing field, department, job title, taken address) happens exactly under its condition in handler order; past those checks the database refuses the row exactly when the User model does; success stores exactly the new user under the next id |
| Auth.AddUserKeepsInvariants | Backend/models/User.js:34-41 | adding a user with an unused address under a fresh id keeps the store well formed and addresses unique |
| Auth.RegisterKeepsEmailsUnique | Backend/routes/authRoutes.js:94-113 | registration keeps addresses unique and the store well formed |
| Auth.Login | Backend/routes/authRoutes.js:150-225 | a missing field, an unknown address and a wrong password are refused, the last two identically; success records the user's id, role and department (0 read as none) and lands on the role's dashboard |
| Auth.LoginFindsAccount | Backend/routes/authRoutes.js:162-195 | with unique addresses, the account stored under an address logs in with its password |
| Auth.RegisterThenLogin | Backend/routes/authRoutes.js:101-113 | an account just registered logs in with the form's address and password, with the role it was given |
| Auth.ForgotPassword | Backend/routes/authRoutes.js:250-288 | an empty address is refused, an unknown one is reported, and otherwise the account's token is replaced by the new one, expiring one hour from now |
| Auth.TokenHolder | Backend/routes/authRoutes.js:296-301 | the token lookup finds a user holding the token with an expiry strictly after now, and finds none only when no user does |
| Auth.ResetPage | Backend/routes/authRoutes.js:291-318 | the reset form is shown exactly when some user holds the token unexpired |
| Auth.ResetPassword | Backend/routes/authRoutes.js:321-365 | a missing token or password is refused; otherwise the holder of the live token gets the new password and loses the token and its expiry; with no holder nothing changes |
| Auth.ForgotThenReset | Backend/routes/authRoutes.js:268-345 | a freshly issued token resets its account at any time strictly before the hour is up and is refused from then on |
| Auth.ResetConsumesToken | Backend/routes/authRoutes.js:349-354 | after a reset the account holds no token, so the same token never resets it again |
| Auth.ForgotInvalidatesOldToken | Backend/routes/authRoutes.js:268-275 | issuing a new token makes the account's previous token useless |
| Auth.ResetThenLogin | Backend/routes/authRoutes.js:349-354 | after a reset the account logs in with the new password and not with any other |
| Workflow.ApplyPreserves | Backend/routes/citizenRoutes.js:222-236 | filing keeps the invariants and only moves the store forward |
| Workflow.ConfirmPreserves | Backend/routes/citizenRoutes.js:278-279 | confirming keeps the invariants and only moves the store forward |
| Workflow.OpenPreserves | Backend/routes/officerRoutes.js:137-143 | opening keeps the invariants and only moves the store forward |
| Workflow.UpdatePreserves | Backend/routes/officerRoutes.js:215-218 | a status update keeps the invariants and only moves the store forward |
| Workflow.CitizenRegisterPreserves | Backend/routes/citizenRoutes.js:81-87 | the citizen router's registration keeps the invariants |
| Workflow.AccountRegisterPreserves | Backend/routes/authRoutes.js:103-113 | registration keeps the invariants |
| Workflow.ForgotPreserves | Backend/routes/authRoutes.js:273-275 | issuing a token keeps the invariants and the account's role |
| Workflow.ResetPreserves | Backend/routes/authRoutes.js:350-354 | a reset keeps the invariants and the account's role |
| Workflow.ProfilePreserves | Backend/routes/officerRoutes.js:265-270 | an officer's profile edit keeps the invariants and the account's role |
| Workflow.StepPreserves | Backend/App.js:91-106 | every state-changing request of the modelled public, citizen and officer handlers, through the mount guards, keeps the store well formed, keeps a reviewer on exactly the requests that left `submitted`, keeps addresses unique, and moves every request only forward |
| Workflow.RunPreserves | Backend/App.js:91-106 | the same over any sequence of requests: no request is lost, its owner, service, description, amount and creation time never change, a reviewer once set is kept, a decision is final, nothing returns to `submitted`, and a payment once confirmed stays confirmed |
| Workflow.OpenMoves | Backend/routes/officerRoutes.js:131-143 | opening changes the status or reviewer of the opened request only, and only by a claim of an officer of its department |
| Workflow.UpdateMoves | Backend/routes/officerRoutes.js:191-218 | an update changes the status of the named request only, and only when its department's officer who is its reviewer asks |
| Workflow.CitizenLeavesReviewAlone | Backend/routes/citizenRoutes.js:222-279 | nothing a citizen does changes the status or reviewer of an existing request |
| Workflow.OnlyItsOfficerMovesARequest | Backend/App.js:95-97 | only an officer of the request's department, opening or updating it, changes its status or reviewer, and that officer is then its reviewer |
| Workflow.HeadNeverChangesRequests | Backend/App.js:96-97 | a head-of-department session changes no request through the modelled routers |

## Left out

- Sessions, cookies, flash messages, `render` and `redirect`: a handler's outcome datatype names the branch it takes instead. The officer's profile edit also copies the new name, address and job title into the session; the model's session carries only the id, role and department.
- Workflow.StepPreserves: its steps are the state-changing handlers of the public, citizen and officer routers in this model. The citizen's profile edit and the writes of the admin and head-of-department routers are not steps.
- Concurrency: each handler is one atomic step, and nothing is claimed about two officers opening a request at the same time. The claim is a read followed by a write, with no guard.
- bcrypt, `crypto.randomBytes` and the clock are foreign calls. They become an injective hash, a token parameter and a millisecond parameter.
- Multer's disk storage and generated file names: the upload is its name, MIME type, size and stored path.
- Column length limits such as `VARCHAR(255)`: a longer name or description would make the insert fail, and the model does not bound strings. Filing inserts the request before its document, with no transaction. So a document insert that fails, say on an original file name over 255 characters, leaves a request without a document while the citizen is told the filing failed. In the model, `ApplyFailed` leaves the store unchanged.
- `ILIKE` is modelled with ASCII lower-casing. Unicode case folding and the `%` and `_` wildcards inside a searched name are not modelled.
- Citizen.ExtName: models `path.extname` for names without directory separators only. Uploaded original names carry none.
- A non-numeric id sent where the database expects an integer makes the query throw. This covers `service_id`, department ids, the `:id` of `/officer/requests/:id` and its status update, and the `requestId` of the payment confirmation. Opening then answers "Server error" (500), the status update answers "Failed to update status" (500), and confirmation redirects with "Payment confirmation failed.". The model takes these ids already as numbers or none, so it has no outcome for these cases.
- `dob` is stored as the string sent. The `DATEONLY` parsing and its failures are not modelled.
- Text.ParseInt10: reads integers exactly. `parseInt` loses precision beyond 2^53 and reads the digit prefix of a decimal like `3.5`; only the second is modelled.
- The `isEmail` validator is approximated by `EmailShaped`: one `@`, text on both sides, a dot inside the domain and no whitespace.
- Service fees are integers. The source keeps them as floating-point numbers and rounds them into `DECIMAL(10,2)`.
- The citizen router's own `POST /login`, the profile pages, the citizen's profile edit (it rewrites name, national id and birth date, never the address, role or any request; the `contact` it assigns is not a column, since the model's column is `contact_info`, so it is never saved), `GET /citizen/pay/:requestId` and the payment-success page: they render or copy fields and make no decisions the model covers.
- The officer dashboard's list of services for the filter drop-down: a read-only lookup.
- The admin and head-of-department routers: department and service maintenance and read-only summaries. The service-fee change behind `Citizen.PaymentPageShowsLiveFee` is stated as a store update.
- The `Payment`, `Notification`, `Document` and `Department` schemas beyond the columns the handlers write, and the `updatedAt` timestamps.
- The `default` branches of the role switches on login and `/`: a stored or session role is always one of the four enumerated roles.
- The deletion cascades of requests, services and users are stated in `Domain` but are not steps of `Workflow`, because no modelled handler deletes rows. The admin router's only delete removes a department. Its cascade to the department's services and users, and from those on to requests and documents, is not modelled. When it reaches a reviewer, `Domain.DeleteReviewerOrphansReview` shows the effect: the review invariant breaks.


=== FILE: auth.dfy ===
/** The public account router: registration with its role whitelist and
    role-dependent validation and storage, login, and the password-reset
    token, which is issued with a one-hour lifetime and consumed by the
    reset that uses it. Clock readings and the random token are inputs. */
module Auth {
  import opened Wrappers
  import opened Domain
  import opened Guards
  import opened Text

  /* ---------------------------------------------------------------------- */
  /* POST /register                                                          */
  /* ---------------------------------------------------------------------- */

  /** The registration form as submitted; an empty field is sent as "". */
  datatype RegisterForm = RegisterForm(
    name: string, email: string, password: string, role: string,
    departmentId: string, jobTitle: string,
    nationalId: string, dob: string, contactInfo: string)

  datatype RegisterOutcome =
    | MissingRequired
    | DepartmentRequired
    | JobTitleRequired
    | EmailTaken
    | RegisterFailed
    | Registered(userId: Id)

  /** The role stored for a requested role: one of the four known roles as
      requested (after trimming), and `citizen` for anything else. */
  function FinalRole(requested: string): (r: Role)
    ensures ParseRole(Trim(requested)).Some? ==> RoleName(r) == Trim(requested)
    ensures ParseRole(Trim(requested)).None? ==> r == Citizen
  {
    ParseRole(Trim(requested)).GetOr(Citizen)
  }

  /** The department number of the form, when it is usable: the field is
      non-empty and `parseInt` reads from it a number other than 0 (0 and
      NaN are what the handler's falsy test refuses). */
  function UsableDepartment(field: string): (d: Option<int>)
    ensures d.Some? <==> field != "" && ParseInt10(field).Some? && ParseInt10(field).value != 0
    ensures d.Some? ==> d == ParseInt10(field)
  {
    if field == "" then None
    else match ParseInt10(field)
      case Some(n) => if n == 0 then None else Some(n)
      case None => None
  }

  /** A department picked from the form's list arrives as its id written in
      decimal; the handler reads that id back, and id 0 counts as no
      department. */
  lemma UsableDepartmentReadsId(n: int, rest: string)
    requires |rest| > 0 ==> !IsDigit(rest[0])
    ensures UsableDepartment(ShowInt(n) + rest) == (if n == 0 then None else Some(n))
  {
    ParseIntReadsShowInt(n, rest);
  }

  /** A blank field, or one whose first non-blank character is neither a
      sign nor a digit, gives no department. */
  lemma UsableDepartmentRefusesNonNumbers(field: string)
    requires || (forall i :: 0 <= i < |field| ==> IsJsSpace(field[i]))
             || (var t := TrimStart(field); |t| > 0 && !IsDigit(t[0]) && t[0] != '-' && t[0] != '+')
    ensures UsableDepartment(field).None?
  {
  }

  /** The row registration stores for a validated form: the department only
      for officers and heads of department, the job title only for
      officers, and the personal fields only for citizens. */
  function NewUser(uid: Id, f: RegisterForm, role: Role): (u: User)
    ensures u.id == uid && u.role == role
    ensures u.name == Trim(f.name) && u.email == Trim(f.email) && u.password == Bcrypt(f.password)
    ensures role == Officer || role == HeadDepartment ==> u.departmentId == UsableDepartment(f.departmentId)
    ensures role == Officer ==> u.jobTitle == Some(Trim(f.jobTitle))
    ensures role == Citizen ==>
              u.nationalId == Some(Trim(f.nationalId)) && u.dob == Some(f.dob) && u.contactInfo == Some(Trim(f.contactInfo))
    ensures u.departmentId.Some? <==> (role == Officer || role == HeadDepartment) && UsableDepartment(f.departmentId).Some?
    ensures u.jobTitle.Some? <==> role == Officer
    ensures u.nationalId.Some? <==> role == Citizen
    ensures u.dob.Some? <==> role == Citizen
    ensures u.contactInfo.Some? <==> role == Citizen
    ensures u.resetToken.None? && u.resetTokenExpires.None?
  {
    User(uid, Trim(f.name), Trim(f.email), Bcrypt(f.password), role,
         if role == Officer || role == HeadDepartment then UsableDepartment(f.departmentId) else None,
         if role == Officer then Some(Trim(f.jobTitle)) else None,
         if role == Citizen then Some(Trim(f.nationalId)) else None,
         if role == Citizen then Some(f.dob) else None,
         if role == Citizen then Some(Trim(f.contactInfo)) else None,
         None, None)
  }

  /** What the database refuses when the row is inserted: an address that is
      not e-mail shaped, a department that does not exist, a taken key. */
  predicate InsertAccepted(st: Store, u: User) {
    && EmailShaped(u.email)
    && (u.departmentId.Some? ==> u.departmentId.value >= 1 && u.departmentId.value in st.departments)
    && st.nextUserId !in st.users
  }

  /** Registers an account. Name, e-mail and password are required (the
      first two after trimming); officers need a usable department and a
      job title, heads of department a usable department; a registered
      e-mail is refused; the row is then stored with the fields its role
      keeps. */
  function Register(st: Store, f: RegisterForm): (h: Handled<RegisterOutcome>)
    ensures h.outcome == MissingRequired <==> Trim(f.name) == "" || Trim(f.email) == "" || f.password == ""
    ensures h.outcome == DepartmentRequired <==>
              && Trim(f.name) != "" && Trim(f.email) != "" && f.password != ""
              && (FinalRole(f.role) == Officer || FinalRole(f.role) == HeadDepartment)
              && UsableDepartment(f.departmentId).None?
    ensures h.outcome == JobTitleRequired <==>
              && Trim(f.name) != "" && Trim(f.email) != "" && f.password != ""
              && FinalRole(f.role) == Officer && UsableDepartment(f.departmentId).Some?
              && Trim(f.jobTitle) == ""
    ensures h.outcome == EmailTaken ==> UserByEmail(st, Trim(f.email)).Some?
    ensures h.outcome == EmailTaken || h.outcome.Registered? || h.outcome == RegisterFailed <==>
              && Trim(f.name) != "" && Trim(f.email) != "" && f.password != ""
              && (FinalRole(f.role) == Officer ==> UsableDepartment(f.departmentId).Some? && Trim(f.jobTitle) != "")
              && (FinalRole(f.role) == HeadDepartment ==> UsableDepartment(f.departmentId).Some?)
    ensures h.outcome == RegisterFailed ==>
              UserByEmail(st, Trim(f.email)).None?
              && !InsertAccepted(st, NewUser(st.nextUserId, f, FinalRole(f.role)))
    ensures !h.outcome.Registered? ==> h.store == st
    ensures h.outcome.Registered? ==>
              && Trim(f.name) != "" && Trim(f.email) != "" && f.password != ""
              && UserByEmail(st, Trim(f.email)).None?
              && (FinalRole(f.role) == Officer ==> UsableDepartment(f.departmentId).Some? && Trim(f.jobTitle) != "")
              && (FinalRole(f.role) == HeadDepartment ==> UsableDepartment(f.departmentId).Some?)
              && h.outcome.userId == st.nextUserId
              && h.outcome.userId !in st.users
              && InsertAccepted(st, NewUser(st.nextUserId, f, FinalRole(f.role)))
              && h.store == st.(users := st.users[h.outcome.userId := NewUser(h.outcome.userId, f, FinalRole(f.role))],
                                nextUserId := st.nextUserId + 1)
  {
    var name := Trim(f.name);
    var email := Trim(f.email);
    if name == "" || email == "" || f.password == "" then Handled(MissingRequired, st)
    else
      var role := FinalRole(f.role);
      var dept := UsableDepartment(f.departmentId);
      if role == Officer && dept.None? then Handled(DepartmentRequired, st)
      else if role == Officer && Trim(f.jobTitle) == "" then Handled(JobTitleRequired, st)
      else if role == HeadDepartment && dept.None? then Handled(DepartmentRequired, st)
      else if UserByEmail(st, email).Some? then Handled(EmailTaken, st)
      else
        var uid := st.nextUserId;
        var u := NewUser(uid, f, role);
        if !InsertAccepted(st, u) then Handled(RegisterFailed, st)
        else Handled(Registered(uid), st.(users := st.users[uid := u], nextUserId := uid + 1))
  }

  /** Adding a row under the next user id with an unused address keeps the
      store well formed and the addresses unique. */
  lemma AddUserKeepsInvariants(st: Store, u: User)
    requires WellFormed(st) && EmailsUnique(st.users)
    requires u.id == st.nextUserId && u.id !in st.users
    requires forall k :: k in st.users ==> st.users[k].email != u.email
    ensures var st' := st.(users := st.users[u.id := u], nextUserId := st.nextUserId + 1);
            WellFormed(st') && EmailsUnique(st'.users)
  {
  }

  /** Registration keeps e-mail addresses unique and the store well formed. */
  lemma RegisterKeepsEmailsUnique(st: Store, f: RegisterForm)
    requires WellFormed(st) && EmailsUnique(st.users)
    ensures EmailsUnique(Register(st, f).store.users)
    ensures WellFormed(Register(st, f).store)
  {
    var h := Register(st, f);
    if h.outcome.Registered? {
      var u := NewUser(h.outcome.userId, f, FinalRole(f.role));
      AddUserKeepsInvariants(st, u);
    }
  }

  /* ---------------------------------------------------------------------- */
  /* POST /login                                                             */
  /* ---------------------------------------------------------------------- */

  datatype LoginOutcome =
    | CredentialsRequired
    | InvalidCredentials
    | LoggedIn(session: Session, landing: Page)

  /** The session's department: the user's, with the falsy 0 read as none. */
  function SessionDepartment(u: User): Option<int> {
    if u.departmentId == Some(0) then None else u.departmentId
  }

  /** Logs a user in. An unknown address and a wrong password are answered
      identically; a successful login records the user's id, role and
      department in the session and lands on the role's dashboard. */
  function Login(st: Store, email: string, password: string): (o: LoginOutcome)
    ensures o == CredentialsRequired <==> Trim(email) == "" || password == ""
    ensures o == InvalidCredentials <==>
              Trim(email) != "" && password != ""
              && (UserByEmail(st, Trim(email)).None?
                  || st.users[UserByEmail(st, Trim(email)).value].password != Bcrypt(password))
    ensures o.LoggedIn? ==>
              && var uid := o.session.userId;
                 && uid in st.users
                 && st.users[uid].email == Trim(email)
                 && st.users[uid].password == Bcrypt(password)
                 && o.session == Session(uid, st.users[uid].role, SessionDepartment(st.users[uid]))
                 && o.landing == DashboardOf(st.users[uid].role)
  {
    var e := Trim(email);
    if e == "" || password == "" then CredentialsRequired
    else match UserByEmail(st, e)
      case None => InvalidCredentials
      case Some(uid) =>
        var u := st.users[uid];
        if u.password != Bcrypt(password) then InvalidCredentials
        else LoggedIn(Session(uid, u.role, SessionDepartment(u)), DashboardOf(u.role))
  }

  /** With unique addresses, the account stored under an address logs in
      with its password. */
  lemma LoginFindsAccount(st: Store, uid: Id, email: string, password: string)
    requires WellFormed(st) && EmailsUnique(st.users)
    requires uid in st.users && st.users[uid].email == Trim(email)
    requires Trim(email) != "" && password != ""
    requires st.users[uid].password == Bcrypt(password)
    ensures Login(st, email, password)
            == LoggedIn(Session(uid, st.users[uid].role, SessionDepartment(st.users[uid])),
                        DashboardOf(st.users[uid].role))
  {
    assert UserByEmail(st, Trim(email)) == Some(uid);
  }

  /** An account registered with a form can log in with the form's address
      and password, and lands on the dashboard of the role it was given. */
  lemma RegisterThenLogin(st: Store, f: RegisterForm)
    requires WellFormed(st) && EmailsUnique(st.users)
    requires Register(st, f).outcome.Registered?
    ensures var h := Register(st, f);
            var o := Login(h.store, f.email, f.password);
            && o.LoggedIn?
            && o.session.userId == h.outcome.userId
            && o.session.role == FinalRole(f.role)
            && o.landing == DashboardOf(FinalRole(f.role))
  {
    var h := Register(st, f);
    var uid := h.outcome.userId;
    RegisterKeepsEmailsUnique(st, f);
    var u := h.store.users[uid];
    assert u == NewUser(uid, f, FinalRole(f.role));
    LoginFindsAccount(h.store, uid, f.email, f.password);
  }

  /* ---------------------------------------------------------------------- */
  /* Password reset                                                          */
  /* ---------------------------------------------------------------------- */

  /** A reset token lives one hour, in milliseconds. */
  const ResetTokenLifetime: nat := 60 * 60 * 1000

  predicate IsHexDigit(c: char) {
    ('0' <= c <= '9') || ('a' <= c <= 'f')
  }

  /** What the random source produces: 20 random bytes in lower-case hex. */
  predicate IsResetToken(t: string) {
    |t| == 40 && forall i :: 0 <= i < |t| ==> IsHexDigit(t[i])
  }

  datatype ForgotOutcome = EmailRequired | NoAccount | ResetLinkIssued(userId: Id)

  /** Issues a reset token for the account with the given (trimmed) e-mail,
      replacing any token it had, valid until one hour from now. */
  function ForgotPassword(st: Store, email: string, token: string, now: nat): (h: Handled<ForgotOutcome>)
    requires IsResetToken(token)
    ensures h.outcome == EmailRequired <==> email == ""
    ensures h.outcome == NoAccount <==> email != "" && UserByEmail(st, Trim(email)).None?
    ensures !h.outcome.ResetLinkIssued? ==> h.store == st
    ensures h.outcome.ResetLinkIssued? ==>
              && var uid := h.outcome.userId;
                 && uid in st.users && st.users[uid].email == Trim(email)
                 && h.store == st.(users := st.users[uid := st.users[uid].(
                                      resetToken := Some(token),
                                      resetTokenExpires := Some(now + ResetTokenLifetime))])
  {
    if email == "" then Handled(EmailRequired, st)
    else match UserByEmail(st, Trim(email))
      case None => Handled(NoAccount, st)
      case Some(uid) =>
        var u := st.users[uid].(resetToken := Some(token), resetTokenExpires := Some(now + ResetTokenLifetime));
        Handled(ResetLinkIssued(uid), st.(users := st.users[uid := u]))
  }

  /** The user a token currently opens: one holding the token with an expiry
      strictly after now. */
  predicate HoldsLiveToken(u: User, token: string, now: nat) {
    u.resetToken == Some(token) && u.resetTokenExpires.Some? && u.resetTokenExpires.value > now
  }

  function TokenHolder(st: Store, token: string, now: nat): (r: Option<Id>)
    ensures r.Some? ==> r.value in st.users && HoldsLiveToken(st.users[r.value], token, now)
    ensures WellFormed(st) && r.None? ==> forall k :: k in st.users ==> !HoldsLiveToken(st.users[k], token, now)
  {
    FindOneUser(st, (u: User) => HoldsLiveToken(u, token, now))
  }

  datatype ResetPageOutcome = ResetFormShown | ResetLinkRejected

  /** `GET /reset-password/:token`: the form is shown only for a live token. */
  function ResetPage(st: Store, token: string, now: nat): (o: ResetPageOutcome)
    ensures o == ResetFormShown ==> exists k :: k in st.users && HoldsLiveToken(st.users[k], token, now)
    ensures WellFormed(st) && (exists k :: k in st.users && HoldsLiveToken(st.users[k], token, now)) ==> o == ResetFormShown
  {
    if TokenHolder(st, token, now).Some? then ResetFormShown else ResetLinkRejected
  }

  datatype ResetOutcome = TokenMissing | PasswordMissing | TokenRejected | PasswordChanged(userId: Id)

  /** Sets a new password for the holder of a live token and clears the
      token and its expiry. */
  function ResetPassword(st: Store, token: string, password: string, now: nat): (h: Handled<ResetOutcome>)
    ensures h.outcome == TokenMissing <==> token == ""
    ensures h.outcome == PasswordMissing <==> token != "" && password == ""
    ensures h.outcome.PasswordChanged? ==>
              && token != "" && password != ""
              && var uid := h.outcome.userId;
                 && uid in st.users && HoldsLiveToken(st.users[uid], token, now)
                 && h.store == st.(users := st.users[uid := st.users[uid].(
                                      password := Bcrypt(password),
                                      resetToken := None, resetTokenExpires := None)])
    ensures WellFormed(st) && token != "" && password != "" && h.outcome == TokenRejected ==>
              forall k :: k in st.users ==> !HoldsLiveToken(st.users[k], token, now)
    ensures !h.outcome.PasswordChanged? ==> h.store == st
  {
    if token == "" then Handled(TokenMissing, st)
    else if password == "" then Handled(PasswordMissing, st)
    else match TokenHolder(st, token, now)
      case None => Handled(TokenRejected, st)
      case Some(uid) =>
        var u := st.users[uid].(password := Bcrypt(password), resetToken := None, resetTokenExpires := None);
        Handled(PasswordChanged(uid), st.(users := st.users[uid := u]))
  }

  /** A token no other account holds, issued for an account, lets that
      account reset its password at any time strictly before the hour is
      up, and not from then on. */
  lemma ForgotThenReset(st: Store, email: string, token: string, issued: nat, now: nat, password: string)
    requires WellFormed(st) && IsResetToken(token) && password != ""
    requires forall k :: k in st.users ==> st.users[k].resetToken != Some(token)
    requires ForgotPassword(st, email, token, issued).outcome.ResetLinkIssued?
    ensures var h := ForgotPassword(st, email, token, issued);
            var r := ResetPassword(h.store, token, password, now);
            && (now < issued + ResetTokenLifetime ==> r.outcome == PasswordChanged(h.outcome.userId))
            && (now >= issued + ResetTokenLifetime ==> r.outcome == TokenRejected)
  {
    var h := ForgotPassword(st, email, token, issued);
    var uid := h.outcome.userId;
    assert forall k :: k in h.store.users && k != uid ==> !HoldsLiveToken(h.store.users[k], token, now);
    assert WellFormed(h.store);
    assert |token| == 40;
    if now < issued + ResetTokenLifetime {
      assert uid in h.store.users && HoldsLiveToken(h.store.users[uid], token, now);
      assert TokenHolder(h.store, token, now) == Some(uid);
    }
  }

  /** A used token is spent: the account it reset no longer holds it, so the
      same token can never reset that account again. */
  lemma ResetConsumesToken(st: Store, token: string, password: string, now: nat, password2: string, later: nat)
    requires ResetPassword(st, token, password, now).outcome.PasswordChanged?
    ensures var h := ResetPassword(st, token, password, now);
            && h.store.users[h.outcome.userId].resetToken.None?
            && ResetPassword(h.store, token, password2, later).outcome != PasswordChanged(h.outcome.userId)
  {
  }

  /** Issuing a new token invalidates the account's previous one. */
  lemma ForgotInvalidatesOldToken(st: Store, email: string, token: string, now: nat,
                                  oldToken: string, password: string, later: nat)
    requires IsResetToken(token) && oldToken != token
    requires ForgotPassword(st, email, token, now).outcome.ResetLinkIssued?
    ensures var h := ForgotPassword(st, email, token, now);
            ResetPassword(h.store, oldToken, password, later).outcome != PasswordChanged(h.outcome.userId)
  {
  }

  /** After a reset, the account logs in with the new password and no longer
      with any other. */
  lemma ResetThenLogin(st: Store, token: string, password: string, now: nat, other: string)
    requires WellFormed(st) && EmailsUnique(st.users)
    requires ResetPassword(st, token, password, now).outcome.PasswordChanged?
    requires other != password
    ensures var h := ResetPassword(st, token, password, now);
            var email := st.users[h.outcome.userId].email;
            Trim(email) == email && email != "" ==>
              && Login(h.store, email, password).LoggedIn?
              && !Login(h.store, email, other).LoggedIn?
  {
    var h := ResetPassword(st, token, password, now);
    var uid := h.outcome.userId;
    var email := st.users[uid].email;
    assert WellFormed(h.store);
    assert EmailsUnique(h.store.users);
    assert h.store.users[uid].email == email;
    if Trim(email) == email && email != "" {
      assert UserByEmail(h.store, email) == Some(uid);
    }
  }
}

=== FILE: citizen.dfy ===
/** The citizen router: the upload filter, filing a service request, the
    payment page and payment confirmation, the citizen's own dashboard, and
    the citizen registration form. */
module Citizen {
  import opened Wrappers
  import opened Domain
  import opened Guards
  import opened Listing
  import opened Text

  /* ---------------------------------------------------------------------- */
  /* Upload filter                                                           */
  /* ---------------------------------------------------------------------- */

  /** A file as the upload middleware sees it: the client's file name, the
      declared MIME type, the size in bytes, and the path it is stored at. */
  datatype Upload = Upload(originalName: string, mimeType: string, size: nat, path: string)

  /** The upload size limit: 5 MiB. */
  const MaxUploadBytes: nat := 5 * 1024 * 1024

  /** Node's `path.extname` of a file name without directory separators: the
      text from the last dot on, unless that dot is not preceded by anything
      but dots (a name like `.pdf` or `..` has no extension). */
  function ExtName(name: string): (ext: string)
    ensures ext == [] <==> |name| <= 1 || '.' !in name[1..] || name == ".."
    ensures |ext| <= |name|
    ensures ext == [] || (ext[0] == '.' && ext == name[|name| - |ext|..])
    ensures ext != [] ==> '.' !in ext[1..]
  {
    var k := LastDot(name);
    if k == |name| then ""
    else if forall i :: 0 <= i < k ==> name[i] == '.' then
      (if k == 0 || name == ".." then "" else name[k..])
    else name[k..]
  }

  /** Index of the last dot of `s`, or `|s|` when there is none. */
  function LastDot(s: string): (k: nat)
    ensures k <= |s|
    ensures k < |s| ==> s[k] == '.' && '.' !in s[k + 1..]
    ensures k == |s| ==> '.' !in s
  {
    if |s| == 0 then 0
    else if s[|s| - 1] == '.' then |s| - 1
    else
      var k := LastDot(s[..|s| - 1]);
      if k == |s| - 1 then |s| else k
  }

  /** The pattern `/jpeg|jpg|pdf/`, unanchored: the text mentions one of the
      three words anywhere. */
  predicate MentionsAllowedType(s: string) {
    Contains(s, "jpeg") || Contains(s, "jpg") || Contains(s, "pdf")
  }

  datatype UploadRejection = TypeNotAllowed | TooLarge

  /** The upload middleware's verdict on a file: the type filter first (on
      the lower-cased extension and on the MIME type as sent), then the size
      limit. */
  function CheckUpload(f: Upload): (v: Option<UploadRejection>)
    ensures v.None? <==>
              && MentionsAllowedType(Lower(ExtName(f.originalName)))
              && MentionsAllowedType(f.mimeType)
              && f.size <= MaxUploadBytes
    ensures v == Some(TypeNotAllowed) <==>
              !(MentionsAllowedType(Lower(ExtName(f.originalName))) && MentionsAllowedType(f.mimeType))
    ensures v == Some(TooLarge) ==> f.size > MaxUploadBytes
  {
    if !(MentionsAllowedType(Lower(ExtName(f.originalName))) && MentionsAllowedType(f.mimeType)) then Some(TypeNotAllowed)
    else if f.size > MaxUploadBytes then Some(TooLarge)
    else None
  }

  /** Both tests are substring tests: a file passes the type filter exactly
      when its extension, lower-cased, and its MIME type each contain one of
      `jpeg`, `jpg` or `pdf` somewhere. */
  lemma UploadFilterIsSubstringTest(f: Upload)
    ensures CheckUpload(f).None? <==>
              && (exists i :: OccursAt(Lower(ExtName(f.originalName)), "jpeg", i)
                           || OccursAt(Lower(ExtName(f.originalName)), "jpg", i)
                           || OccursAt(Lower(ExtName(f.originalName)), "pdf", i))
              && (exists i :: OccursAt(f.mimeType, "jpeg", i)
                           || OccursAt(f.mimeType, "jpg", i)
                           || OccursAt(f.mimeType, "pdf", i))
              && f.size <= MaxUploadBytes
  {
    var ext := Lower(ExtName(f.originalName));
    ContainsIffOccurs(ext, "jpeg");
    ContainsIffOccurs(ext, "jpg");
    ContainsIffOccurs(ext, "pdf");
    ContainsIffOccurs(f.mimeType, "jpeg");
    ContainsIffOccurs(f.mimeType, "jpg");
    ContainsIffOccurs(f.mimeType, "pdf");
  }

  /** A name made of a stem that does not start with a dot and a final
      dotted suffix has that suffix as its extension. */
  lemma ExtNameOfStemAndSuffix(stem: string, suffix: string)
    requires |stem| > 0 && stem[0] != '.'
    requires |suffix| > 0 && suffix[0] == '.' && '.' !in suffix[1..]
    ensures ExtName(stem + suffix) == suffix
  {
    var name := stem + suffix;
    var ext := ExtName(name);
    assert name[1..][|stem| - 1] == '.';
    assert name != "..";
    assert ext != [];
    assert ext == name[|name| - |suffix|..] == suffix;
  }

  /** A PDF whose name ends in `.PDF` passes the filter. */
  lemma UpperCasePdfExtensionAccepted()
    ensures CheckUpload(Upload("scan.PDF", "application/pdf", 1000, "p")).None?
  {
    assert ExtName("scan.PDF") == ".PDF" by {
      assert ".PDF"[1..] == "PDF";
      ExtNameOfStemAndSuffix("scan", ".PDF");
      assert "scan" + ".PDF" == "scan.PDF";
    }
    assert Lower(".PDF") == "." + "pdf";
    EndsInPdfAllowed(".");
    assert "application/pdf" == "application/" + "pdf";
    EndsInPdfAllowed("application/");
  }

  /** Any text ending in `pdf` passes the pattern. */
  lemma EndsInPdfAllowed(prefix: string)
    ensures MentionsAllowedType(prefix + "pdf")
  {
    EndsWithOccurs(prefix, "pdf");
    ContainsIffOccurs(prefix + "pdf", "pdf");
  }

  /** A word at the end of a text occurs in it. */
  lemma EndsWithOccurs(a: string, t: string)
    ensures OccursAt(a + t, t, |a|)
  {
    assert (a + t)[|a|..|a| + |t|] == t;
  }

  /** A file named `.pdf` has nothing before its dot, so it has no extension
      and is refused whatever its type. */
  lemma DotFileRefused(mimeType: string, size: nat, path: string)
    ensures CheckUpload(Upload(".pdf", mimeType, size, path)) == Some(TypeNotAllowed)
  {
    assert LastDot(".pdf") == 0;
    assert ExtName(".pdf") == "";
    assert Lower("") == "";
  }

  /* ---------------------------------------------------------------------- */
  /* POST /apply                                                             */
  /* ---------------------------------------------------------------------- */

  datatype ApplyOutcome =
    | ApplyNeedsLogin
    | UploadRefused(reason: UploadRejection)
    | NoServiceChosen
    | NoDocument
    | UnknownService
    | ApplyFailed
    | Applied(requestId: Id)

  /** The request filed for a citizen: submitted, unpaid, unreviewed, owing
      the service's fee as it is at this moment. */
  function NewRequest(id: Id, citizen: Id, serviceId: Id, service: Service, description: string, now: nat): Request {
    Request(id, description, Submitted, serviceId, citizen, None, Pending, service.fee, now)
  }

  /** Files a service request with its supporting document. The upload is
      checked first, then the form: a service must be chosen, a document
      uploaded, and the service must exist. The description is trimmed. The
      insert fails on the citizen foreign key when the session's user row is
      gone. */
  function Apply(st: Store, s: Option<Session>, serviceId: Option<Id>, file: Option<Upload>,
                 description: string, now: nat): (h: Handled<ApplyOutcome>)
    ensures h.outcome == ApplyNeedsLogin <==> !EnsureCitizen(s)
    ensures h.outcome.UploadRefused? <==>
              EnsureCitizen(s) && file.Some? && CheckUpload(file.value).Some?
    ensures h.outcome == NoServiceChosen <==>
              EnsureCitizen(s) && (file.None? || CheckUpload(file.value).None?) && serviceId.None?
    ensures h.outcome == NoDocument <==>
              EnsureCitizen(s) && file.None? && serviceId.Some?
    ensures h.outcome == UnknownService <==>
              && EnsureCitizen(s) && file.Some? && CheckUpload(file.value).None?
              && serviceId.Some? && serviceId.value !in st.services
    ensures h.outcome.Applied? <==>
              && EnsureCitizen(s) && file.Some? && CheckUpload(file.value).None?
              && serviceId.Some? && serviceId.value in st.services
              && s.value.userId in st.users
              && st.nextRequestId !in st.requests && st.nextDocumentId !in st.documents
    ensures !h.outcome.Applied? ==> h.store == st
    ensures h.outcome.Applied? ==>
              && h.outcome.requestId == st.nextRequestId
              && h.outcome.requestId !in st.requests
              && h.outcome.requestId in h.store.requests
              && var r := h.store.requests[h.outcome.requestId];
                 && r.id == h.outcome.requestId
                 && r.status == Submitted && r.paymentStatus == Pending && r.reviewedBy.None?
                 && r.paymentAmount == st.services[serviceId.value].fee
                 && r.serviceId == serviceId.value
                 && r.citizenId == s.value.userId
                 && r.description == Trim(description)
                 && r.createdAt == now
    ensures h.outcome.Applied? ==>
              && st.nextDocumentId !in st.documents
              && h.store == st.(requests := st.requests[h.outcome.requestId := h.store.requests[h.outcome.requestId]],
                                nextRequestId := st.nextRequestId + 1,
                                documents := st.documents[st.nextDocumentId :=
                                  Document(h.outcome.requestId, file.value.path, file.value.mimeType, file.value.originalName)],
                                nextDocumentId := st.nextDocumentId + 1)
  {
    if !EnsureCitizen(s) then Handled(ApplyNeedsLogin, st)
    else if file.Some? && CheckUpload(file.value).Some? then Handled(UploadRefused(CheckUpload(file.value).value), st)
    else if serviceId.None? then Handled(NoServiceChosen, st)
    else if file.None? then Handled(NoDocument, st)
    else
      var desc := Trim(description);
      if serviceId.value !in st.services then Handled(UnknownService, st)
      else if s.value.userId !in st.users then Handled(ApplyFailed, st)
      else
        var rid := st.nextRequestId;
        var did := st.nextDocumentId;
        var r := NewRequest(rid, s.value.userId, serviceId.value, st.services[serviceId.value], desc, now);
        var d := Document(rid, file.value.path, file.value.mimeType, file.value.originalName);
        if rid in st.requests || did in st.documents then
          // a duplicate primary key; never happens in a well-formed store
          Handled(ApplyFailed, st)
        else
          Handled(Applied(rid), st.(requests := st.requests[rid := r], nextRequestId := rid + 1,
                                    documents := st.documents[did := d], nextDocumentId := did + 1))
  }

  /** A filed request starts as the column defaults say a request starts:
      in `submitted`, with payment `pending`. */
  lemma AppliedRequestStartsAtDefaults(st: Store, s: Option<Session>, serviceId: Option<Id>,
                                       file: Option<Upload>, description: string, now: nat)
    requires Apply(st, s, serviceId, file, description, now).outcome.Applied?
    ensures var h := Apply(st, s, serviceId, file, description, now);
            && h.store.requests[h.outcome.requestId].status == DefaultStatus
            && h.store.requests[h.outcome.requestId].paymentStatus == DefaultPaymentStatus
  {
  }

  /** In a well-formed store every filing that passes the form checks is
      stored: the serials never collide with existing rows. */
  lemma ApplyStoresInWellFormedStore(st: Store, s: Option<Session>, serviceId: Id, f: Upload,
                                     description: string, now: nat)
    requires WellFormed(st)
    requires EnsureCitizen(s) && s.value.userId in st.users
    requires CheckUpload(f).None? && serviceId in st.services
    ensures Apply(st, s, Some(serviceId), Some(f), description, now).outcome == Applied(st.nextRequestId)
    ensures WellFormed(Apply(st, s, Some(serviceId), Some(f), description, now).store)
  {
  }

  /* ---------------------------------------------------------------------- */
  /* GET /payment/:requestId                                                 */
  /* ---------------------------------------------------------------------- */

  datatype PaymentPageOutcome =
    | PaymentNeedsLogin
    | PaymentNoRequest
    | PaymentServerError
    | NothingToPay
    | ShowPayment(requestId: Id, fee: int)

  /** The payment page is shown for an existing request whose service still
      charges a positive fee. The fee is read from the service as it is now,
      not from the amount recorded on the request. */
  function PaymentPage(st: Store, s: Option<Session>, rid: Id): (o: PaymentPageOutcome)
    ensures o.ShowPayment? <==>
              && EnsureCitizen(s) && rid in st.requests
              && st.requests[rid].serviceId in st.services
              && st.services[st.requests[rid].serviceId].fee > 0
    ensures o.ShowPayment? ==> o.requestId == rid && o.fee == st.services[st.requests[rid].serviceId].fee
    ensures o == PaymentNeedsLogin <==> !EnsureCitizen(s)
    ensures o == PaymentNoRequest <==> EnsureCitizen(s) && rid !in st.requests
    ensures o == PaymentServerError <==>
              EnsureCitizen(s) && rid in st.requests && st.requests[rid].serviceId !in st.services
    ensures o == NothingToPay <==>
              && EnsureCitizen(s) && rid in st.requests && st.requests[rid].serviceId in st.services
              && st.services[st.requests[rid].serviceId].fee <= 0
  {
    if !EnsureCitizen(s) then PaymentNeedsLogin
    else if rid !in st.requests then PaymentNoRequest
    else if st.requests[rid].serviceId !in st.services then PaymentServerError
    else
      var fee := st.services[st.requests[rid].serviceId].fee;
      if fee <= 0 then NothingToPay else ShowPayment(rid, fee)
  }

  /** The amount recorded on a request is a snapshot taken when it was
      filed, but the payment page reads the service's fee afresh: after the
      fee changes, the page asks for the new fee while the request still
      records the old one. */
  lemma PaymentPageShowsLiveFee(st: Store, s: Option<Session>, rid: Id, fee: int)
    requires EnsureCitizen(s) && rid in st.requests && st.requests[rid].serviceId in st.services
    requires fee > 0
    ensures var sid := st.requests[rid].serviceId;
            var st' := st.(services := st.services[sid := st.services[sid].(fee := fee)]);
            && PaymentPage(st', s, rid) == ShowPayment(rid, fee)
            && st'.requests[rid].paymentAmount == st.requests[rid].paymentAmount
  {
  }

  /* ---------------------------------------------------------------------- */
  /* POST /payment/confirm                                                   */
  /* ---------------------------------------------------------------------- */

  datatype ConfirmOutcome = ConfirmNeedsLogin | ConfirmNotFound | PaymentConfirmed(requestId: Id)

  /** Marks a request paid. Any citizen may confirm any existing request,
      whatever its owner and its payment state; nothing but the payment
      status changes (the review status in particular stays as it is). */
  function ConfirmPayment(st: Store, s: Option<Session>, rid: Id): (h: Handled<ConfirmOutcome>)
    ensures h.outcome == ConfirmNeedsLogin <==> !EnsureCitizen(s)
    ensures h.outcome == ConfirmNotFound <==> EnsureCitizen(s) && rid !in st.requests
    ensures h.outcome.PaymentConfirmed? ==>
              && h.outcome.requestId == rid
              && h.store == st.(requests := st.requests[rid := st.requests[rid].(paymentStatus := Paid)])
    ensures !h.outcome.PaymentConfirmed? ==> h.store == st
  {
    if !EnsureCitizen(s) then Handled(ConfirmNeedsLogin, st)
    else if rid !in st.requests then Handled(ConfirmNotFound, st)
    else Handled(PaymentConfirmed(rid), st.(requests := st.requests[rid := st.requests[rid].(paymentStatus := Paid)]))
  }

  /** Confirming twice is confirming once, whoever confirms. */
  lemma ConfirmIdempotent(st: Store, s1: Option<Session>, s2: Option<Session>, rid: Id)
    requires EnsureCitizen(s1)
    ensures var st1 := ConfirmPayment(st, s1, rid).store;
            ConfirmPayment(st1, s2, rid).store == st1
  {
    var st1 := ConfirmPayment(st, s1, rid).store;
    if rid in st.requests && EnsureCitizen(s2) {
      assert st1.requests[rid].(paymentStatus := Paid) == st1.requests[rid];
      assert st1.requests[rid := st1.requests[rid]] == st1.requests;
    }
  }

  /* ---------------------------------------------------------------------- */
  /* GET /dashboard                                                          */
  /* ---------------------------------------------------------------------- */

  datatype CitizenDashboardOutcome = CitizenDashboardNeedsLogin | OwnRequests(requests: seq<Request>)

  /** The citizen dashboard: exactly the requests the citizen filed, each
      once, newest first. */
  method Dashboard(st: Store, s: Option<Session>) returns (out: CitizenDashboardOutcome)
    requires forall k :: k in st.requests ==> st.requests[k].id == k
    ensures out == CitizenDashboardNeedsLogin <==> !EnsureCitizen(s)
    ensures out.OwnRequests? ==> NewestFirst(out.requests) && DistinctIds(out.requests)
    ensures out.OwnRequests? ==> forall r :: r in out.requests ==>
              r.id in st.requests && st.requests[r.id] == r && r.citizenId == s.value.userId
    ensures out.OwnRequests? ==> forall k :: k in st.requests && st.requests[k].citizenId == s.value.userId ==>
              st.requests[k] in out.requests
  {
    if !EnsureCitizen(s) {
      return CitizenDashboardNeedsLogin;
    }
    var me := s.value.userId;
    var rs := SelectNewestFirst(st.requests, (r: Request) => r.citizenId == me);
    return OwnRequests(rs);
  }

  /* ---------------------------------------------------------------------- */
  /* POST /register (citizen router)                                         */
  /* ---------------------------------------------------------------------- */

  datatype CitizenRegisterOutcome = EmailAlreadyRegistered | InvalidDepartment | CitizenRegisterFailed | CitizenRegistered(userId: Id)

  /** The citizen router's registration form: refuses a registered e-mail
      and a chosen department that does not exist, and always creates a
      citizen. Fields are taken as sent, without trimming; the User model
      still refuses an address that is not e-mail shaped. */
  function Register(st: Store, name: string, email: string, password: string,
                    departmentId: Option<int>): (h: Handled<CitizenRegisterOutcome>)
    ensures h.outcome == EmailAlreadyRegistered <==> UserByEmail(st, email).Some?
    ensures h.outcome == InvalidDepartment <==>
              UserByEmail(st, email).None? && departmentId.Some? && !(departmentId.value >= 1 && departmentId.value in st.departments)
    ensures h.outcome.CitizenRegistered? <==>
              && UserByEmail(st, email).None?
              && (departmentId.None? || (departmentId.value >= 1 && departmentId.value in st.departments))
              && EmailShaped(email) && st.nextUserId !in st.users
    ensures !h.outcome.CitizenRegistered? ==> h.store == st
    ensures h.outcome.CitizenRegistered? ==>
              && h.outcome.userId == st.nextUserId
              && h.outcome.userId !in st.users
              && h.outcome.userId in h.store.users
              && h.store == st.(users := st.users[h.outcome.userId := h.store.users[h.outcome.userId]],
                                nextUserId := st.nextUserId + 1)
              && h.store.users[h.outcome.userId] ==
                   User(h.outcome.userId, name, email, Bcrypt(password), Citizen, departmentId,
                        None, None, None, None, None, None)
              && EmailShaped(email)
  {
    if UserByEmail(st, email).Some? then Handled(EmailAlreadyRegistered, st)
    else if departmentId.Some? && !(departmentId.value >= 1 && departmentId.value in st.departments) then Handled(InvalidDepartment, st)
    else if !EmailShaped(email) || st.nextUserId in st.users then Handled(CitizenRegisterFailed, st)
    else
      var uid := st.nextUserId;
      var u := User(uid, name, email, Bcrypt(password), Citizen, departmentId,
                    None, None, None, None, None, None);
      Handled(CitizenRegistered(uid), st.(users := st.users[uid := u], nextUserId := uid + 1))
  }

  /** Citizen registration keeps e-mail addresses unique. */
  lemma RegisterKeepsEmailsUnique(st: Store, name: string, email: string, password: string,
                                  departmentId: Option<int>)
    requires WellFormed(st) && EmailsUnique(st.users)
    ensures EmailsUnique(Register(st, name, email, password, departmentId).store.users)
    ensures WellFormed(Register(st, name, email, password, departmentId).store)
  {
  }
}

=== FILE: domain.dfy ===
/** The portal's records and the store that holds them: the Request, User,
    Service and Document tables, their enumerations, the referential
    integrity the database keeps, and the cascades its foreign keys perform
    when a row is deleted. */
module Domain {
  import opened Wrappers

  /** Primary keys. The tables use serial ids, which start at 1, so an id is
      never the falsy number 0 and `!row.reviewed_by` means "no reviewer". */
  type Id = n: nat | n >= 1 witness 1

  /* ---------------------------------------------------------------------- */
  /* Enumerations and their database spellings                               */
  /* ---------------------------------------------------------------------- */

  datatype Role = Citizen | Officer | HeadDepartment | Admin

  function RoleName(r: Role): string {
    match r
    case Citizen => "citizen"
    case Officer => "officer"
    case HeadDepartment => "headdepartment"
    case Admin => "admin"
  }

  /** The `users.role` enumeration accepts exactly the four role spellings. */
  function ParseRole(s: string): (r: Option<Role>)
    ensures r.Some? ==> RoleName(r.value) == s
    ensures forall role :: RoleName(role) == s ==> r == Some(role)
  {
    if s == "citizen" then Some(Citizen)
    else if s == "officer" then Some(Officer)
    else if s == "headdepartment" then Some(HeadDepartment)
    else if s == "admin" then Some(Admin)
    else None
  }

  datatype Status = Submitted | UnderReview | Approved | Rejected

  /** The column default of `requests.status`. */
  const DefaultStatus: Status := Submitted

  function StatusName(s: Status): string {
    match s
    case Submitted => "submitted"
    case UnderReview => "under_review"
    case Approved => "approved"
    case Rejected => "rejected"
  }

  /** The `requests.status` enumeration accepts exactly the four status
      spellings; any other text is refused by the database. */
  function ParseStatus(s: string): (r: Option<Status>)
    ensures r.Some? ==> StatusName(r.value) == s
    ensures forall st :: StatusName(st) == s ==> r == Some(st)
  {
    if s == "submitted" then Some(Submitted)
    else if s == "under_review" then Some(UnderReview)
    else if s == "approved" then Some(Approved)
    else if s == "rejected" then Some(Rejected)
    else None
  }

  /** A finalized request: approved or rejected. */
  predicate IsTerminal(s: Status) {
    s == Approved || s == Rejected
  }

  datatype PaymentStatus = Pending | Paid | Failed

  /** The column default of `requests.payment_status`. */
  const DefaultPaymentStatus: PaymentStatus := Pending

  function PaymentStatusName(p: PaymentStatus): string {
    match p
    case Pending => "pending"
    case Paid => "paid"
    case Failed => "failed"
  }

  /** The `requests.payment_status` enumeration accepts exactly its three
      spellings. */
  function ParsePaymentStatus(s: string): (r: Option<PaymentStatus>)
    ensures r.Some? ==> PaymentStatusName(r.value) == s
    ensures forall p :: PaymentStatusName(p) == s ==> r == Some(p)
  {
    if s == "pending" then Some(Pending)
    else if s == "paid" then Some(Paid)
    else if s == "failed" then Some(Failed)
    else None
  }

  /* ---------------------------------------------------------------------- */
  /* Rows                                                                    */
  /* ---------------------------------------------------------------------- */

  /** A row of `requests`. Only `reviewedBy` may be null. Money is held in
      integer cents; `createdAt` is an abstract timestamp. */
  datatype Request = Request(
    id: Id,
    description: string,
    status: Status,
    serviceId: Id,
    citizenId: Id,
    reviewedBy: Option<Id>,
    paymentStatus: PaymentStatus,
    paymentAmount: int,
    createdAt: nat)

  /** The part of a `services` row the workflow reads. */
  datatype Service = Service(departmentId: Id, fee: int)

  /** A bcrypt digest, seen as an injective image of the plain password;
      comparing a password with a digest is equality of the images. */
  datatype PasswordHash = Bcrypt(secret: string)

  /** A row of `users`. `name`, `email`, `password` and `role` are required,
      the role-specific fields and the reset token are nullable. The
      department id is whatever the registration handler parsed, so it is an
      arbitrary integer. Reset expiry is an abstract timestamp. */
  datatype User = User(
    id: Id,
    name: string,
    email: string,
    password: PasswordHash,
    role: Role,
    departmentId: Option<int>,
    jobTitle: Option<string>,
    nationalId: Option<string>,
    dob: Option<string>,
    contactInfo: Option<string>,
    resetToken: Option<string>,
    resetTokenExpires: Option<nat>)

  /** A row of `documents`, the file uploaded with a request. */
  datatype Document = Document(requestId: Id, filePath: string, fileType: string, originalName: string)

  /** The database: one map per table, keyed by primary key, and the next
      value of each serial sequence. Departments matter only as a set of
      existing ids. */
  datatype Store = Store(
    requests: map<Id, Request>,
    users: map<Id, User>,
    services: map<Id, Service>,
    departments: set<Id>,
    documents: map<Id, Document>,
    nextRequestId: Id,
    nextUserId: Id,
    nextDocumentId: Id)

  /** What a route handler gives back: the branch it took and the store
      after it. */
  datatype Handled<O> = Handled(outcome: O, store: Store)

  /* ---------------------------------------------------------------------- */
  /* Integrity                                                               */
  /* ---------------------------------------------------------------------- */

  /** The integrity the database keeps: keys agree with ids, serials are ahead
      of every key, and every foreign key names an existing row (the
      services of requests, their citizens and reviewers, the requests of
      documents, the departments of services). */
  ghost predicate WellFormed(st: Store) {
    && (forall k :: k in st.requests ==>
          && st.requests[k].id == k
          && k < st.nextRequestId
          && st.requests[k].serviceId in st.services
          && st.requests[k].citizenId in st.users
          && (st.requests[k].reviewedBy.Some? ==> st.requests[k].reviewedBy.value in st.users))
    && (forall k :: k in st.users ==> st.users[k].id == k && k < st.nextUserId)
    && (forall k :: k in st.documents ==> k < st.nextDocumentId && st.documents[k].requestId in st.requests)
    && (forall k :: k in st.services ==> st.services[k].departmentId in st.departments)
  }

  /** No two users share an e-mail address (the unique constraint on
      `users.email`). */
  ghost predicate EmailsUnique(users: map<Id, User>) {
    forall a, b :: a in users && b in users && users[a].email == users[b].email ==> a == b
  }

  /** The review invariant of the workflow: a request has a reviewer exactly
      when it has left `submitted`. */
  ghost predicate ClaimConsistent(st: Store) {
    forall k :: k in st.requests ==>
      (st.requests[k].reviewedBy.None? <==> st.requests[k].status == Submitted)
  }

  /** The department a request belongs to, through its service and the
      service's department. None when either row is missing, which is where
      the handlers dereference null. */
  function RequestDepartment(st: Store, r: Request): (d: Option<Id>)
    ensures d.Some? <==> r.serviceId in st.services && st.services[r.serviceId].departmentId in st.departments
    ensures d.Some? ==> d.value == st.services[r.serviceId].departmentId
  {
    if r.serviceId in st.services && st.services[r.serviceId].departmentId in st.departments
    then Some(st.services[r.serviceId].departmentId)
    else None
  }

  /** In a well-formed store every request resolves to a department. */
  lemma WellFormedResolvesDepartment(st: Store, k: Id)
    requires WellFormed(st)
    requires k in st.requests
    ensures RequestDepartment(st, st.requests[k]).Some?
  {
  }

  /* ---------------------------------------------------------------------- */
  /* Lookups without ORDER BY                                                */
  /* ---------------------------------------------------------------------- */

  /** The user `findOne` returns for a condition: the lowest id in
      `[lo, hi)` whose row satisfies `p`. The query has no ORDER BY, so any
      matching row would do; the model fixes the lowest. */
  function FindUser(users: map<Id, User>, p: User -> bool, lo: Id, hi: nat): (r: Option<Id>)
    ensures r.Some? ==> lo <= r.value < hi && r.value in users && p(users[r.value])
    ensures r.Some? ==> forall k: Id :: lo <= k < r.value && k in users ==> !p(users[k])
    ensures r.None? ==> forall k: Id :: lo <= k < hi && k in users ==> !p(users[k])
    decreases hi - lo
  {
    if lo >= hi then None
    else if lo in users && p(users[lo]) then Some(lo)
    else FindUser(users, p, lo + 1, hi)
  }

  /** `findOne` over the whole users table. In a well-formed store it finds a
      user exactly when one satisfies the condition. */
  function FindOneUser(st: Store, p: User -> bool): (r: Option<Id>)
    ensures r.Some? ==> r.value in st.users && p(st.users[r.value])
    ensures WellFormed(st) && r.None? ==> forall k :: k in st.users ==> !p(st.users[k])
  {
    FindUser(st.users, p, 1, st.nextUserId)
  }

  /** The user registered under an e-mail address, compared exactly as
      PostgreSQL compares text. */
  function UserByEmail(st: Store, email: string): (r: Option<Id>)
    ensures r.Some? ==> r.value in st.users && st.users[r.value].email == email
    ensures WellFormed(st) && r.None? ==> forall k :: k in st.users ==> st.users[k].email != email
    ensures WellFormed(st) && EmailsUnique(st.users) ==>
              forall k :: k in st.users && st.users[k].email == email ==> r == Some(k)
  {
    FindOneUser(st, (u: User) => u.email == email)
  }

  /* ---------------------------------------------------------------------- */
  /* Associations and deletion cascades                                      */
  /* ---------------------------------------------------------------------- */

  /** `user.reviewedRequests`: the ids of the requests whose `reviewed_by` is
      the user. */
  function ReviewedRequests(st: Store, uid: Id): (ks: set<Id>)
    ensures forall k :: k in ks <==> k in st.requests && st.requests[k].reviewedBy == Some(uid)
  {
    set k | k in st.requests && st.requests[k].reviewedBy == Some(uid)
  }

  /** Deletes a set of requests together with their documents, as the
      cascade from `requests` to `documents` does. */
  function DropRequests(st: Store, doomed: set<Id>): (st': Store)
    ensures forall k :: k in st'.requests <==> k in st.requests && k !in doomed
    ensures forall k :: k in st'.requests ==> st'.requests[k] == st.requests[k]
    ensures forall k :: k in st'.documents <==>
              k in st.documents && st.documents[k].requestId !in doomed
    ensures forall k :: k in st'.documents ==> st'.documents[k] == st.documents[k]
    ensures st'.users == st.users && st'.services == st.services
    ensures st'.departments == st.departments
  {
    st.(requests := map k | k in st.requests && k !in doomed :: st.requests[k],
        documents := map k | k in st.documents && st.documents[k].requestId !in doomed :: st.documents[k])
  }

  /** Deleting a request deletes its documents and nothing else. */
  function DeleteRequest(st: Store, rid: Id): (st': Store)
    ensures rid !in st'.requests
    ensures forall k :: k in st'.requests <==> k in st.requests && k != rid
    ensures forall k :: k in st'.documents <==> k in st.documents && st.documents[k].requestId != rid
    ensures forall k :: k in st'.requests ==> st'.requests[k] == st.requests[k]
    ensures forall k :: k in st'.documents ==> st'.documents[k] == st.documents[k]
    ensures st'.users == st.users && st'.services == st.services && st'.departments == st.departments
    ensures WellFormed(st) ==> WellFormed(st')
  {
    DropRequests(st, {rid})
  }

  /** Deleting a service deletes every request for it (and their documents). */
  function DeleteService(st: Store, sid: Id): (st': Store)
    ensures sid !in st'.services
    ensures forall k :: k in st'.requests <==> k in st.requests && st.requests[k].serviceId != sid
    ensures forall k :: k in st'.requests ==> st'.requests[k] == st.requests[k]
    ensures forall k :: k in st'.documents <==>
              && k in st.documents
              && !(st.documents[k].requestId in st.requests && st.requests[st.documents[k].requestId].serviceId == sid)
    ensures forall k :: k in st'.documents ==> st'.documents[k] == st.documents[k]
    ensures st'.services == st.services - {sid}
    ensures st'.users == st.users && st'.departments == st.departments
    ensures WellFormed(st) ==> WellFormed(st')
  {
    var st1 := DropRequests(st, set k | k in st.requests && st.requests[k].serviceId == sid);
    st1.(services := st1.services - {sid})
  }

  /** Deleting a user deletes the requests the user filed as a citizen and
      sets `reviewed_by` to null on the requests the user reviewed; every
      other field of the surviving requests is kept. */
  function DeleteUser(st: Store, uid: Id): (st': Store)
    ensures uid !in st'.users
    ensures forall k :: k in st'.requests <==> k in st.requests && st.requests[k].citizenId != uid
    ensures forall k :: k in st'.requests ==>
              st'.requests[k] == st.requests[k].(reviewedBy :=
                if st.requests[k].reviewedBy == Some(uid) then None else st.requests[k].reviewedBy)
    ensures forall k :: k in st'.documents <==>
              && k in st.documents
              && !(st.documents[k].requestId in st.requests && st.requests[st.documents[k].requestId].citizenId == uid)
    ensures forall k :: k in st'.documents ==> st'.documents[k] == st.documents[k]
    ensures st'.users == st.users - {uid}
    ensures st'.services == st.services && st'.departments == st.departments
    ensures ReviewedRequests(st', uid) == {}
    ensures WellFormed(st) ==> WellFormed(st')
  {
    var st1 := DropRequests(st, set k | k in st.requests && st.requests[k].citizenId == uid);
    var orphaned := map k | k in st1.requests ::
      if st1.requests[k].reviewedBy == Some(uid) then st1.requests[k].(reviewedBy := None) else st1.requests[k];
    st1.(requests := orphaned, users := st1.users - {uid})
  }

  /** Deleting a reviewer breaks the review invariant: a request under
      review whose reviewer is deleted keeps its status but loses its
      reviewer. */
  lemma DeleteReviewerOrphansReview(st: Store, uid: Id, k: Id)
    requires k in st.requests
    requires st.requests[k].status == UnderReview && st.requests[k].reviewedBy == Some(uid)
    requires st.requests[k].citizenId != uid
    ensures k in DeleteUser(st, uid).requests
    ensures DeleteUser(st, uid).requests[k].status == UnderReview
    ensures DeleteUser(st, uid).requests[k].reviewedBy.None?
    ensures !ClaimConsistent(DeleteUser(st, uid))
  {
  }
}

=== FILE: guards.dfy ===
/** Who may reach what: the session an actor carries, the role guards the
    application mounts in front of each router, the guards the routers put
    in front of their own handlers, and the role-to-page redirects of the
    home and profile shortcuts. */
module Guards {
  import opened Wrappers
  import opened Domain

  /** The logged-in actor as the session records it at login. */
  datatype Session = Session(userId: Id, role: Role, departmentId: Option<int>)

  /** `ensureRole(r)`: a session exists and its role is `r`. */
  predicate EnsureRole(s: Option<Session>, r: Role) {
    s.Some? && s.value.role == r
  }

  /** The officer router's guard: officers and heads of department. */
  predicate EnsureOfficer(s: Option<Session>) {
    s.Some? && (s.value.role == Officer || s.value.role == HeadDepartment)
  }

  /** The citizen router's guard. */
  predicate EnsureCitizen(s: Option<Session>) {
    s.Some? && s.value.role == Citizen
  }

  /** The path prefixes the application mounts its routers under. */
  datatype Area = AuthArea | CitizenArea | OfficerArea | HeadArea | AdminArea

  /** The guard in front of each mounted router. The admin router only asks
      for a login here and checks the role itself. */
  predicate MountAdmits(a: Area, s: Option<Session>) {
    match a
    case AuthArea => true
    case CitizenArea => EnsureRole(s, Citizen)
    case OfficerArea => EnsureRole(s, Officer)
    case HeadArea => EnsureRole(s, HeadDepartment)
    case AdminArea => s.Some?
  }

  /** Each mount admits a session of its own role, and only that role except
      for the admin mount, which admits every logged-in session. */
  lemma MountsAdmitTheirRole(s: Option<Session>)
    ensures MountAdmits(AuthArea, s)
    ensures MountAdmits(CitizenArea, s) <==> s.Some? && s.value.role == Citizen
    ensures MountAdmits(OfficerArea, s) <==> s.Some? && s.value.role == Officer
    ensures MountAdmits(HeadArea, s) <==> s.Some? && s.value.role == HeadDepartment
    ensures MountAdmits(AdminArea, s) <==> s.Some?
  {
  }

  /** An officer handler runs only when the mount guard and the router guard
      both admit the session; together they admit exactly officers. */
  lemma OfficerHandlersReachOnlyOfficers(s: Option<Session>)
    ensures MountAdmits(OfficerArea, s) && EnsureOfficer(s) <==> s.Some? && s.value.role == Officer
  {
  }

  /** A head of department passes the officer router's own guard but never
      gets past the mount in front of it. */
  lemma HeadPassesOfficerGuardButNotMount(s: Option<Session>)
    requires s.Some? && s.value.role == HeadDepartment
    ensures EnsureOfficer(s)
    ensures !MountAdmits(OfficerArea, s)
  {
  }

  /** A citizen handler runs exactly for citizens. */
  lemma CitizenHandlersReachOnlyCitizens(s: Option<Session>)
    ensures MountAdmits(CitizenArea, s) && EnsureCitizen(s) <==> s.Some? && s.value.role == Citizen
  {
  }

  /** Pages a redirect can land on. */
  datatype Page =
    | LoginPage
    | CitizenDashboard | OfficerDashboard | AdminDashboard | HeadDashboard
    | CitizenProfile | HeadProfile

  /** The mount a page is served behind: `/login` is public, the other pages
      live under their role's prefix. */
  function PageArea(p: Page): Area {
    match p
    case LoginPage => AuthArea
    case CitizenDashboard => CitizenArea
    case CitizenProfile => CitizenArea
    case OfficerDashboard => OfficerArea
    case AdminDashboard => AdminArea
    case HeadDashboard => HeadArea
    case HeadProfile => HeadArea
  }

  /** The four dashboards. */
  predicate IsDashboard(p: Page) {
    p == CitizenDashboard || p == OfficerDashboard || p == AdminDashboard || p == HeadDashboard
  }

  /** The dashboard each role is sent to, after login and from `/`: a
      dashboard served behind a mount that lets that role in, and, except
      for the admin area, lets no other role in. */
  function DashboardOf(r: Role): (p: Page)
    ensures IsDashboard(p)
    ensures forall s :: EnsureRole(s, r) ==> MountAdmits(PageArea(p), s)
    ensures r != Admin ==> forall s :: MountAdmits(PageArea(p), s) ==> EnsureRole(s, r)
    ensures r == Admin <==> PageArea(p) == AdminArea
  {
    match r
    case Citizen => CitizenDashboard
    case Officer => OfficerDashboard
    case Admin => AdminDashboard
    case HeadDepartment => HeadDashboard
  }

  /** No two roles share a dashboard. */
  lemma DashboardsDistinct(r1: Role, r2: Role)
    ensures DashboardOf(r1) == DashboardOf(r2) ==> r1 == r2
  {
  }

  /** `GET /`: a logged-in actor is sent to the dashboard of their role and
      no two roles share one; without a session the actor goes to the login
      page. */
  function HomeRedirect(s: Option<Session>): (p: Page)
    ensures p == LoginPage <==> s.None?
    ensures forall r :: p == DashboardOf(r) <==> EnsureRole(s, r)
    ensures MountAdmits(PageArea(p), s)
  {
    if s.None? then LoginPage else DashboardOf(s.value.role)
  }

  /** `GET /profile`: only citizens and heads of department have a profile
      shortcut; officers, admins and anonymous actors go to the login page. */
  function ProfileRedirect(s: Option<Session>): (p: Page)
    ensures p == CitizenProfile <==> EnsureRole(s, Citizen)
    ensures p == HeadProfile <==> EnsureRole(s, HeadDepartment)
    ensures p == LoginPage <==> !EnsureRole(s, Citizen) && !EnsureRole(s, HeadDepartment)
    ensures MountAdmits(PageArea(p), s)
  {
    if s.None? then LoginPage
    else match s.value.role
      case Citizen => CitizenProfile
      case HeadDepartment => HeadProfile
      case _ => LoginPage
  }
}

=== FILE: listing.dfy ===
/** Dashboard listings: the requests a query selects, newest first, as
    `findAll({ where, order: [['createdAt', 'DESC']] })` returns them. */
module Listing {
  import opened Domain

  /** Ordered by creation time, newest first. Requests created at the same
      instant may come in either order, as the query leaves ties open. */
  predicate NewestFirst(rs: seq<Request>) {
    forall i, j :: 0 <= i < j < |rs| ==> rs[i].createdAt >= rs[j].createdAt
  }

  /** No request is listed twice. */
  predicate DistinctIds(rs: seq<Request>) {
    forall i, j :: 0 <= i < j < |rs| ==> rs[i].id != rs[j].id
  }

  /** Places `r` into a newest-first list, before every request not newer
      than it. */
  function InsertNewestFirst(r: Request, rs: seq<Request>): (out: seq<Request>)
    requires NewestFirst(rs)
    ensures NewestFirst(out)
    ensures multiset(out) == multiset(rs) + multiset{r}
    ensures forall x :: x in out <==> x in rs || x == r
  {
    if |rs| == 0 then [r]
    else if r.createdAt >= rs[0].createdAt then [r] + rs
    else
      var rest := InsertNewestFirst(r, rs[1..]);
      assert rs == [rs[0]] + rs[1..];
      assert forall x :: x in rest ==> x.createdAt <= rs[0].createdAt;
      [rs[0]] + rest
  }

  /** Inserting a request whose id is not listed yet keeps the ids distinct. */
  lemma {:induction false} InsertKeepsIdsDistinct(r: Request, rs: seq<Request>)
    requires NewestFirst(rs)
    requires DistinctIds(rs)
    requires forall x :: x in rs ==> x.id != r.id
    ensures DistinctIds(InsertNewestFirst(r, rs))
  {
    if |rs| > 0 && r.createdAt < rs[0].createdAt {
      InsertKeepsIdsDistinct(r, rs[1..]);
      var rest := InsertNewestFirst(r, rs[1..]);
      assert forall x :: x in rest ==> x.id != rs[0].id;
    }
  }

  /** The rows that satisfy `keep`, each exactly once, newest first. */
  method SelectNewestFirst(rows: map<Id, Request>, keep: Request -> bool) returns (rs: seq<Request>)
    requires forall k :: k in rows ==> rows[k].id == k
    ensures NewestFirst(rs)
    ensures DistinctIds(rs)
    ensures forall r :: r in rs ==> r.id in rows && rows[r.id] == r && keep(r)
    ensures forall k :: k in rows && keep(rows[k]) ==> rows[k] in rs
  {
    rs := [];
    var todo := rows.Keys;
    ghost var done: set<Id> := {};
    while todo != {}
      invariant todo <= rows.Keys
      invariant done == rows.Keys - todo
      invariant NewestFirst(rs)
      invariant DistinctIds(rs)
      invariant forall r :: r in rs ==> r.id in done && rows[r.id] == r && keep(r)
      invariant forall k :: k in done && keep(rows[k]) ==> rows[k] in rs
      decreases todo
    {
      var k :| k in todo;
      if keep(rows[k]) {
        InsertKeepsIdsDistinct(rows[k], rs);
        rs := InsertNewestFirst(rows[k], rs);
      }
      todo := todo - {k};
      done := done + {k};
    }
  }
}

=== FILE: officer.dfy ===
/** The officer router: the department-scoped dashboard, opening a request
    (which claims it when it is unassigned and still submitted), the status
    update that only the recorded reviewer may make, and the officer's edit
    of their own profile. Each handler takes the session, its inputs and the
    store, and returns the branch it took together with the store after it;
    the checks run in the order the router runs them. */
module Officer {
  import opened Wrappers
  import opened Domain
  import opened Guards
  import opened Listing
  import opened Text

  /** The department check every officer handler makes: the request's
      service belongs to the session's department. A session without a
      department matches nothing. */
  predicate SameDepartment(st: Store, s: Session, r: Request)
    requires RequestDepartment(st, r).Some?
  {
    s.departmentId == Some(RequestDepartment(st, r).value as int)
  }

  /** The request exists and belongs to the session's department. */
  predicate InScope(st: Store, s: Option<Session>, id: Id) {
    && s.Some? && id in st.requests
    && RequestDepartment(st, st.requests[id]).Some?
    && SameDepartment(st, s.value, st.requests[id])
  }

  /** A request the first officer to open it claims. */
  predicate Claimable(r: Request) {
    r.reviewedBy.None? && r.status == Submitted
  }

  /** The row a claim writes: the officer becomes the reviewer and the
      request goes under review. */
  function Claimed(r: Request, officer: Id): Request {
    r.(reviewedBy := Some(officer), status := UnderReview)
  }

  /* ---------------------------------------------------------------------- */
  /* GET /requests/:id                                                       */
  /* ---------------------------------------------------------------------- */

  datatype OpenOutcome =
    | OpenNeedsLogin
    | OpenNotFound
    | OpenServerError
    | OpenForbidden
    | Opened(request: Request, claimed: bool)

  /** Opens a request for an officer. A request of another department is
      refused; an unassigned submitted request is claimed by the officer
      (the write fails on the reviewer foreign key when the officer's user
      row is gone); any other request is shown as it is. */
  function Open(st: Store, s: Option<Session>, id: Id): (h: Handled<OpenOutcome>)
    ensures h.outcome == OpenNeedsLogin <==> !EnsureOfficer(s)
    ensures h.outcome == OpenNotFound <==> EnsureOfficer(s) && id !in st.requests
    ensures h.outcome == OpenForbidden <==>
              && EnsureOfficer(s) && id in st.requests
              && RequestDepartment(st, st.requests[id]).Some?
              && !SameDepartment(st, s.value, st.requests[id])
    ensures h.outcome.Opened? ==>
              && EnsureOfficer(s) && id in st.requests
              && RequestDepartment(st, st.requests[id]).Some?
              && SameDepartment(st, s.value, st.requests[id])
    ensures h.outcome == OpenServerError <==>
              && EnsureOfficer(s) && id in st.requests
              && (|| RequestDepartment(st, st.requests[id]).None?
                  || (&& SameDepartment(st, s.value, st.requests[id])
                      && Claimable(st.requests[id]) && s.value.userId !in st.users))
    ensures && EnsureOfficer(s) && id in st.requests
            && RequestDepartment(st, st.requests[id]).Some? && SameDepartment(st, s.value, st.requests[id])
            && !Claimable(st.requests[id]) ==>
              h.outcome == Opened(st.requests[id], false)
    ensures h.outcome.Opened? && h.outcome.claimed <==>
              && h.outcome.Opened?
              && Claimable(st.requests[id])
              && s.value.userId in st.users
    ensures h.outcome.Opened? && h.outcome.claimed ==>
              && h.outcome.request == Claimed(st.requests[id], s.value.userId)
              && h.store == st.(requests := st.requests[id := h.outcome.request])
    ensures !(h.outcome.Opened? && h.outcome.claimed) ==> h.store == st
    ensures h.outcome.Opened? && !h.outcome.claimed ==> h.outcome.request == st.requests[id]
  {
    if !EnsureOfficer(s) then Handled(OpenNeedsLogin, st)
    else if id !in st.requests then Handled(OpenNotFound, st)
    else
      var r := st.requests[id];
      if RequestDepartment(st, r).None? then Handled(OpenServerError, st)
      else if !SameDepartment(st, s.value, r) then Handled(OpenForbidden, st)
      else if Claimable(r) then
        if s.value.userId !in st.users then Handled(OpenServerError, st)
        else
          var r' := Claimed(r, s.value.userId);
          Handled(Opened(r', true), st.(requests := st.requests[id := r']))
      else Handled(Opened(r, false), st)
  }

  /** Opening never overwrites a reviewer: a request that already has one
      keeps it, and whoever opens it is shown that reviewer. */
  lemma OpenNeverReassigns(st: Store, s: Option<Session>, id: Id)
    requires id in st.requests && st.requests[id].reviewedBy.Some?
    ensures Open(st, s, id).store == st
    ensures Open(st, s, id).outcome.Opened? ==>
              Open(st, s, id).outcome.request.reviewedBy == st.requests[id].reviewedBy
  {
  }

  /* ---------------------------------------------------------------------- */
  /* POST /requests/:id/status                                               */
  /* ---------------------------------------------------------------------- */

  datatype UpdateOutcome =
    | UpdateNeedsLogin
    | InvalidStatus
    | UpdateNotFound
    | UpdateServerError
    | UpdateForbidden
    | NotReviewer
    | Finalized
    | MustReviewFirst
    | Updated(status: Status)

  /** The statuses the update form may ask for: every status but
      `submitted`. */
  function UpdateTarget(target: string): (t: Option<Status>)
    ensures t.Some? <==> ParseStatus(target).Some? && ParseStatus(target).value != Submitted
    ensures t.Some? ==> StatusName(t.value) == target
  {
    match ParseStatus(target)
    case Some(Submitted) => None
    case other => other
  }

  /** Changes the status of a request. The target is validated before the
      request is looked up; then come the department check, the reviewer
      check, the lock on finalized requests, and the rule that a submitted
      request can only go under review. An accepted update writes the target
      status and re-writes the reviewer with the acting officer, who is
      already the reviewer. */
  function UpdateStatus(st: Store, s: Option<Session>, id: Id, target: string): (h: Handled<UpdateOutcome>)
    ensures h.outcome == UpdateNeedsLogin <==> !EnsureOfficer(s)
    ensures h.outcome == InvalidStatus <==> EnsureOfficer(s) && UpdateTarget(target).None?
    ensures h.outcome == UpdateNotFound <==>
              EnsureOfficer(s) && UpdateTarget(target).Some? && id !in st.requests
    ensures h.outcome == UpdateServerError <==>
              && EnsureOfficer(s) && UpdateTarget(target).Some? && id in st.requests
              && RequestDepartment(st, st.requests[id]).None?
    ensures h.outcome == UpdateForbidden <==>
              && EnsureOfficer(s) && UpdateTarget(target).Some? && id in st.requests
              && RequestDepartment(st, st.requests[id]).Some?
              && !SameDepartment(st, s.value, st.requests[id])
    ensures h.outcome == NotReviewer <==>
              && EnsureOfficer(s) && UpdateTarget(target).Some? && InScope(st, s, id)
              && st.requests[id].reviewedBy != Some(s.value.userId)
    ensures h.outcome == Finalized <==>
              && EnsureOfficer(s) && UpdateTarget(target).Some? && InScope(st, s, id)
              && st.requests[id].reviewedBy == Some(s.value.userId)
              && IsTerminal(st.requests[id].status)
    ensures h.outcome == MustReviewFirst <==>
              && EnsureOfficer(s) && UpdateTarget(target).Some? && InScope(st, s, id)
              && st.requests[id].reviewedBy == Some(s.value.userId)
              && st.requests[id].status == Submitted && target != "under_review"
    ensures h.outcome.Updated? <==>
              && EnsureOfficer(s) && UpdateTarget(target).Some? && id in st.requests
              && RequestDepartment(st, st.requests[id]).Some?
              && SameDepartment(st, s.value, st.requests[id])
              && st.requests[id].reviewedBy == Some(s.value.userId)
              && !IsTerminal(st.requests[id].status)
              && (st.requests[id].status == Submitted ==> UpdateTarget(target) == Some(UnderReview))
    ensures h.outcome.Updated? ==>
              && h.outcome.status == UpdateTarget(target).value
              && h.store == st.(requests := st.requests[id := st.requests[id].(status := h.outcome.status)])
    ensures !h.outcome.Updated? ==> h.store == st
  {
    if !EnsureOfficer(s) then Handled(UpdateNeedsLogin, st)
    else if UpdateTarget(target).None? then Handled(InvalidStatus, st)
    else if id !in st.requests then Handled(UpdateNotFound, st)
    else
      var officer := s.value.userId;
      var t := UpdateTarget(target).value;
      var r := st.requests[id];
      if RequestDepartment(st, r).None? then Handled(UpdateServerError, st)
      else if !SameDepartment(st, s.value, r) then Handled(UpdateForbidden, st)
      else if r.reviewedBy != Some(officer) then Handled(NotReviewer, st)
      else if IsTerminal(r.status) then Handled(Finalized, st)
      else if r.status == Submitted && t != UnderReview then Handled(MustReviewFirst, st)
      else
        var r' := r.(status := t, reviewedBy := Some(officer));
        Handled(Updated(t), st.(requests := st.requests[id := r']))
  }

  /** A finalized request is never changed by a status update, and neither
      is its reviewer. */
  lemma UpdateLeavesFinalizedAlone(st: Store, s: Option<Session>, id: Id, target: string)
    requires id in st.requests && IsTerminal(st.requests[id].status)
    ensures UpdateStatus(st, s, id, target).store == st
  {
  }

  /** A status update never changes who the reviewer is, and it never sends a
      request back to `submitted`. */
  lemma UpdateKeepsReviewer(st: Store, s: Option<Session>, id: Id, target: string)
    requires id in st.requests
    ensures var st' := UpdateStatus(st, s, id, target).store;
            id in st'.requests
            && st'.requests[id].reviewedBy == st.requests[id].reviewedBy
            && (st'.requests[id].status == Submitted ==> st.requests[id].status == Submitted)
  {
  }

  /** Asking for `under_review` on a request already under review is accepted
      and changes nothing. */
  lemma UnderReviewAgainIsNoOp(st: Store, s: Option<Session>, id: Id)
    requires id in st.requests && st.requests[id].status == UnderReview
    ensures UpdateStatus(st, s, id, "under_review").store == st
  {
    var r := st.requests[id];
    var h := UpdateStatus(st, s, id, "under_review");
    if h.outcome.Updated? {
      assert r.(status := UnderReview) == r;
      assert st.requests[id := r] == st.requests;
    }
  }

  /** The payment state of a request plays no part in a status update: a
      request may be approved or rejected whether or not it is paid. */
  lemma DecisionIgnoresPayment(st: Store, s: Option<Session>, id: Id, target: string, p: PaymentStatus)
    requires id in st.requests
    ensures var st' := st.(requests := st.requests[id := st.requests[id].(paymentStatus := p)]);
            UpdateStatus(st', s, id, target).outcome == UpdateStatus(st, s, id, target).outcome
  {
    var st' := st.(requests := st.requests[id := st.requests[id].(paymentStatus := p)]);
    assert RequestDepartment(st', st'.requests[id]) == RequestDepartment(st, st.requests[id]);
  }

  /** Where every reviewed request has left `submitted`, the rule that a
      submitted request must first go under review is never what rejects an
      update: on a submitted request the reviewer check fails first. */
  lemma MustReviewFirstIsUnreachable(st: Store, s: Option<Session>, id: Id, target: string)
    requires ClaimConsistent(st)
    ensures UpdateStatus(st, s, id, target).outcome != MustReviewFirst
    ensures id in st.requests && st.requests[id].status == Submitted ==>
              !UpdateStatus(st, s, id, target).outcome.Updated?
  {
  }

  /** A request left under review without a reviewer, as deleting its
      reviewer leaves it, can no longer be claimed or updated by anyone. */
  lemma OrphanedReviewIsStuck(st: Store, s: Option<Session>, id: Id, target: string)
    requires id in st.requests
    requires st.requests[id].status == UnderReview && st.requests[id].reviewedBy.None?
    ensures Open(st, s, id).store == st
    ensures UpdateStatus(st, s, id, target).store == st
  {
  }

  /** The claim is the only way out of `submitted`: the officer who opens a
      claimable request becomes its reviewer, may then decide it, and the
      decision is final. */
  lemma ClaimThenDecide(st: Store, s: Option<Session>, id: Id, decision: string)
    requires EnsureOfficer(s) && id in st.requests
    requires Claimable(st.requests[id]) && s.value.userId in st.users
    requires RequestDepartment(st, st.requests[id]).Some? && SameDepartment(st, s.value, st.requests[id])
    requires decision == "approved" || decision == "rejected"
    ensures var st1 := Open(st, s, id).store;
            var h := UpdateStatus(st1, s, id, decision);
            && st1.requests[id].reviewedBy == Some(s.value.userId)
            && st1.requests[id].status == UnderReview
            && h.outcome.Updated?
            && IsTerminal(h.store.requests[id].status)
            && UpdateStatus(h.store, s, id, "under_review").outcome == Finalized
  {
    var st1 := Open(st, s, id).store;
    assert RequestDepartment(st1, st1.requests[id]) == RequestDepartment(st, st.requests[id]);
    var h := UpdateStatus(st1, s, id, decision);
    assert RequestDepartment(h.store, h.store.requests[id]) == RequestDepartment(st, st.requests[id]);
  }

  /** After one officer has claimed a request, another officer of the same
      department who opens it changes nothing and sees the first officer as
      reviewer, and a status update from the second officer is refused. */
  lemma SecondOfficerIsShownTheReviewer(st: Store, s1: Option<Session>, s2: Option<Session>, id: Id)
    requires EnsureOfficer(s1) && EnsureOfficer(s2) && s1.value.userId != s2.value.userId
    requires id in st.requests && Claimable(st.requests[id]) && s1.value.userId in st.users
    requires RequestDepartment(st, st.requests[id]).Some?
    requires SameDepartment(st, s1.value, st.requests[id]) && SameDepartment(st, s2.value, st.requests[id])
    ensures var st1 := Open(st, s1, id).store;
            && Open(st1, s2, id).store == st1
            && Open(st1, s2, id).outcome == Opened(st1.requests[id], false)
            && st1.requests[id].reviewedBy == Some(s1.value.userId)
            && UpdateStatus(st1, s2, id, "approved").outcome == NotReviewer
  {
    var st1 := Open(st, s1, id).store;
    assert RequestDepartment(st1, st1.requests[id]) == RequestDepartment(st, st.requests[id]);
  }

  /* ---------------------------------------------------------------------- */
  /* GET /dashboard                                                          */
  /* ---------------------------------------------------------------------- */

  /** The dashboard's query string; an empty text field is no filter. */
  datatype DashboardQuery = DashboardQuery(name: string, status: string, serviceId: Option<Id>)

  datatype DashboardOutcome =
    | DashboardNeedsLogin
    | DashboardServerError
    | Listed(requests: seq<Request>)

  /** The rows the dashboard query joins and filters: the request's service
      is in the session's department (and is the chosen service, if one is
      chosen), the request has the chosen status, and its citizen exists and
      has a name containing the searched text, ignoring case. */
  predicate DashboardShows(st: Store, department: Option<int>, q: DashboardQuery, r: Request) {
    && RequestDepartment(st, r).Some?
    && department == Some(RequestDepartment(st, r).value as int)
    && (q.serviceId.Some? ==> r.serviceId == q.serviceId.value)
    && (q.status != "" ==> StatusName(r.status) == q.status)
    && r.citizenId in st.users
    && (q.name != "" ==> ILikeInfix(st.users[r.citizenId].name, q.name))
  }

  /** The officer dashboard: exactly the requests the filters select, each
      once, newest first. A status filter the enumeration does not know
      makes the query fail. */
  method Dashboard(st: Store, s: Option<Session>, q: DashboardQuery) returns (out: DashboardOutcome)
    requires forall k :: k in st.requests ==> st.requests[k].id == k
    ensures out == DashboardNeedsLogin <==> !EnsureOfficer(s)
    ensures out == DashboardServerError <==>
              EnsureOfficer(s) && q.status != "" && ParseStatus(q.status).None?
    ensures out.Listed? ==> NewestFirst(out.requests) && DistinctIds(out.requests)
    ensures out.Listed? ==> forall r :: r in out.requests ==>
              r.id in st.requests && st.requests[r.id] == r && DashboardShows(st, s.value.departmentId, q, r)
    ensures out.Listed? ==> forall k :: k in st.requests && DashboardShows(st, s.value.departmentId, q, st.requests[k]) ==>
              st.requests[k] in out.requests
  {
    if !EnsureOfficer(s) {
      return DashboardNeedsLogin;
    }
    if q.status != "" && ParseStatus(q.status).None? {
      return DashboardServerError;
    }
    var department := s.value.departmentId;
    var rs := SelectNewestFirst(st.requests, r => DashboardShows(st, department, q, r));
    return Listed(rs);
  }

  /* ---------------------------------------------------------------------- */
  /* POST /profile                                                           */
  /* ---------------------------------------------------------------------- */

  datatype ProfileOutcome = ProfileNeedsLogin | OfficerNotFound | ProfileUpdateFailed | ProfileUpdated

  /** Another account already uses the address. */
  predicate AddressTakenByOther(st: Store, uid: Id, email: string) {
    exists k :: k in st.users && k != uid && st.users[k].email == email
  }

  /** Rewrites the name, address and job title of the session's own account,
      as sent. Saving the row runs the User model's checks: an address that
      is not e-mail shaped, or one another account holds, is refused. */
  function EditProfile(st: Store, s: Option<Session>, name: string, email: string,
                       jobTitle: string): (h: Handled<ProfileOutcome>)
    ensures h.outcome == ProfileNeedsLogin <==> !EnsureOfficer(s)
    ensures h.outcome == OfficerNotFound <==> EnsureOfficer(s) && s.value.userId !in st.users
    ensures h.outcome == ProfileUpdateFailed <==>
              && EnsureOfficer(s) && s.value.userId in st.users
              && (!EmailShaped(email) || AddressTakenByOther(st, s.value.userId, email))
    ensures h.outcome != ProfileUpdated ==> h.store == st
    ensures h.outcome == ProfileUpdated ==>
              && EmailShaped(email)
              && (forall k :: k in st.users && st.users[k].email == email ==> k == s.value.userId)
              && h.store == st.(users := st.users[s.value.userId :=
                   st.users[s.value.userId].(name := name, email := email, jobTitle := Some(jobTitle))])
  {
    if !EnsureOfficer(s) then Handled(ProfileNeedsLogin, st)
    else
      var uid := s.value.userId;
      if uid !in st.users then Handled(OfficerNotFound, st)
      else if !EmailShaped(email) || AddressTakenByOther(st, uid, email) then Handled(ProfileUpdateFailed, st)
      else
        var u := st.users[uid].(name := name, email := email, jobTitle := Some(jobTitle));
        Handled(ProfileUpdated, st.(users := st.users[uid := u]))
  }

  /** Editing a profile keeps the store well formed, the review invariant,
      and the addresses unique; it touches no request, no other account, and
      neither the role nor the password of the edited one. */
  lemma EditProfileKeepsInvariants(st: Store, s: Option<Session>, name: string, email: string, jobTitle: string)
    requires WellFormed(st) && ClaimConsistent(st) && EmailsUnique(st.users)
    ensures var st' := EditProfile(st, s, name, email, jobTitle).store;
            && WellFormed(st') && ClaimConsistent(st') && EmailsUnique(st'.users)
            && st'.requests == st.requests && st'.users.Keys == st.users.Keys
            && (forall k :: k in st.users ==>
                  && st'.users[k].role == st.users[k].role && st'.users[k].password == st.users[k].password
                  && (s.None? || k != s.value.userId ==> st'.users[k] == st.users[k]))
  {
    var h := EditProfile(st, s, name, email, jobTitle);
    if h.outcome == ProfileUpdated {
      var uid := s.value.userId;
      forall a, b | a in h.store.users && b in h.store.users && h.store.users[a].email == h.store.users[b].email
        ensures a == b
      {
        if a != uid && b != uid {
          assert st.users[a].email == st.users[b].email;
        }
      }
    }
  }
}

=== FILE: text.dfy ===
/** String primitives the portal's handlers lean on: JavaScript's `trim`,
    `parseInt(_, 10)` and `toLowerCase`, regular-expression and ILIKE
    substring tests, and the e-mail shape check of the User model.
    Strings are sequences of characters; nothing here knows about encodings. */
module Text {
  import opened Wrappers

  /* ---------------------------------------------------------------------- */
  /* Whitespace and trimming                                                 */
  /* ---------------------------------------------------------------------- */

  /** The characters ECMAScript counts as WhiteSpace or LineTerminator; both
      `String.prototype.trim` and `parseInt` skip exactly these. */
  predicate IsJsSpace(c: char) {
    || c == ' ' || c == '\t' || c == '\n' || c == '\r'
    || c == '\U{000B}' || c == '\U{000C}' || c == '\U{00A0}' || c == '\U{FEFF}'
    || c == '\U{1680}' || ('\U{2000}' <= c <= '\U{200A}')
    || c == '\U{2028}' || c == '\U{2029}' || c == '\U{202F}'
    || c == '\U{205F}' || c == '\U{3000}'
  }

  /** Number of whitespace characters at the front of `s`. */
  function LeadingSpaces(s: string): (n: nat)
    ensures n <= |s|
    ensures forall i :: 0 <= i < n ==> IsJsSpace(s[i])
    ensures n < |s| ==> !IsJsSpace(s[n])
  {
    if |s| == 0 || !IsJsSpace(s[0]) then 0 else 1 + LeadingSpaces(s[1..])
  }

  /** Number of whitespace characters at the back of `s`. */
  function TrailingSpaces(s: string): (n: nat)
    ensures n <= |s|
    ensures forall i :: |s| - n <= i < |s| ==> IsJsSpace(s[i])
    ensures n < |s| ==> !IsJsSpace(s[|s| - n - 1])
  {
    if |s| == 0 || !IsJsSpace(s[|s| - 1]) then 0 else 1 + TrailingSpaces(s[..|s| - 1])
  }

  /** `s` without its leading whitespace. */
  function TrimStart(s: string): string {
    s[LeadingSpaces(s)..]
  }

  /** JavaScript's `s.trim()`: the longest infix of `s` that neither starts
      nor ends with whitespace, obtained by dropping only whitespace. */
  function Trim(s: string): (t: string)
    ensures LeadingSpaces(s) + |t| <= |s|
    ensures t == s[LeadingSpaces(s)..LeadingSpaces(s) + |t|]
    ensures forall i :: 0 <= i < LeadingSpaces(s) ==> IsJsSpace(s[i])
    ensures forall i :: LeadingSpaces(s) + |t| <= i < |s| ==> IsJsSpace(s[i])
    ensures |t| > 0 ==> !IsJsSpace(t[0]) && !IsJsSpace(t[|t| - 1])
  {
    var u := TrimStart(s);
    u[..|u| - TrailingSpaces(u)]
  }

  /** Trimming twice is trimming once. */
  lemma TrimIdempotent(s: string)
    ensures Trim(Trim(s)) == Trim(s)
  {
    var t := Trim(s);
    assert LeadingSpaces(t) == 0;
    assert TrailingSpaces(t[LeadingSpaces(t)..]) == 0;
  }

  /** A string made only of whitespace trims to the empty string, and only
      such a string does. */
  lemma TrimEmptyIffBlank(s: string)
    ensures Trim(s) == [] <==> forall i :: 0 <= i < |s| ==> IsJsSpace(s[i])
  {
    if Trim(s) != [] {
      var t := Trim(s);
      assert s[LeadingSpaces(s)] == t[0];
    }
  }

  /* ---------------------------------------------------------------------- */
  /* Substring search                                                        */
  /* ---------------------------------------------------------------------- */

  /** `t` occurs in `s` starting at index `i`. */
  ghost predicate OccursAt(s: string, t: string, i: int) {
    0 <= i && i + |t| <= |s| && s[i..i + |t|] == t
  }

  /** Substring test, by scanning `s` from the front. This is what an
      unanchored regular expression made of literal alternatives tests for
      each alternative. */
  predicate Contains(s: string, t: string)
    decreases |s|
  {
    if |s| < |t| then false
    else if s[..|t|] == t then true
    else Contains(s[1..], t)
  }

  /** The scan finds `t` exactly when `t` occurs somewhere in `s`. */
  lemma {:induction false} ContainsIffOccurs(s: string, t: string)
    ensures Contains(s, t) <==> exists i :: OccursAt(s, t, i)
    decreases |s|
  {
    if |s| < |t| {
    } else if s[..|t|] == t {
      assert OccursAt(s, t, 0);
    } else {
      ContainsIffOccurs(s[1..], t);
      if Contains(s[1..], t) {
        var i :| OccursAt(s[1..], t, i);
        assert s[1..][i..i + |t|] == s[i + 1..i + 1 + |t|];
        assert OccursAt(s, t, i + 1);
      }
      if exists i :: OccursAt(s, t, i) {
        var i :| OccursAt(s, t, i);
        assert i != 0;
        assert s[1..][i - 1..i - 1 + |t|] == s[i..i + |t|];
        assert OccursAt(s[1..], t, i - 1);
      }
    }
  }

  /** ASCII case folding; the letters A-Z become a-z and nothing else moves. */
  function LowerChar(c: char): char {
    if 'A' <= c <= 'Z' then (c as int + 32) as char else c
  }

  function Lower(s: string): (r: string)
    ensures |r| == |s|
    ensures forall i :: 0 <= i < |s| ==> r[i] == LowerChar(s[i])
  {
    seq(|s|, i requires 0 <= i < |s| => LowerChar(s[i]))
  }

  /** PostgreSQL's `value ILIKE '%pattern%'` for a pattern without wildcard
      characters: a case-insensitive substring test. */
  predicate ILikeInfix(value: string, pattern: string) {
    Contains(Lower(value), Lower(pattern))
  }

  /* ---------------------------------------------------------------------- */
  /* parseInt(_, 10) and decimal rendering                                  */
  /* ---------------------------------------------------------------------- */

  predicate IsDigit(c: char) {
    '0' <= c <= '9'
  }

  predicate AllDigits(d: string) {
    forall i :: 0 <= i < |d| ==> IsDigit(d[i])
  }

  /** Length of the run of decimal digits at the front of `s`. */
  function DigitRun(s: string): (n: nat)
    ensures n <= |s|
    ensures AllDigits(s[..n])
    ensures n < |s| ==> !IsDigit(s[n])
  {
    if |s| == 0 || !IsDigit(s[0]) then 0 else 1 + DigitRun(s[1..])
  }

  /** The number a string of decimal digits denotes. */
  function DigitsValue(d: string): nat
    requires AllDigits(d)
  {
    if |d| == 0 then 0
    else 10 * DigitsValue(d[..|d| - 1]) + (d[|d| - 1] as int - '0' as int)
  }

  /** JavaScript's `parseInt(s, 10)`: skip leading whitespace, read an optional
      sign and then the longest run of decimal digits, ignoring whatever
      follows; `None` stands for NaN, the result when there is no digit. */
  function ParseInt10(s: string): (r: Option<int>)
    ensures r.Some? <==> (var t := TrimStart(s);
                          var body := if |t| > 0 && (t[0] == '-' || t[0] == '+') then t[1..] else t;
                          |body| > 0 && IsDigit(body[0]))
  {
    var t := TrimStart(s);
    var negative := |t| > 0 && t[0] == '-';
    var body := if |t| > 0 && (t[0] == '-' || t[0] == '+') then t[1..] else t;
    var k := DigitRun(body);
    if k == 0 then None
    else
      var magnitude: int := DigitsValue(body[..k]);
      Some(if negative then -magnitude else magnitude)
  }

  function DigitChar(n: nat): (c: char)
    requires n < 10
    ensures IsDigit(c)
  {
    ('0' as int + n) as char
  }

  /** Decimal rendering of a natural number, without leading zeros. */
  function ShowNat(n: nat): (d: string)
    ensures |d| > 0 && AllDigits(d)
    ensures n > 0 ==> d[0] != '0'
  {
    if n < 10 then [DigitChar(n)] else ShowNat(n / 10) + [DigitChar(n % 10)]
  }

  /** Decimal rendering of an integer, as JavaScript's `String(n)` gives it. */
  function ShowInt(n: int): string {
    if n < 0 then "-" + ShowNat(-n) else ShowNat(n)
  }

  lemma {:induction false} DigitsValueOfShowNat(n: nat)
    ensures DigitsValue(ShowNat(n)) == n
    decreases n
  {
    if n >= 10 {
      var d := ShowNat(n);
      DigitsValueOfShowNat(n / 10);
      assert d[..|d| - 1] == ShowNat(n / 10);
    }
  }

  /** A digit string followed by something that does not start with a digit
      has exactly that digit string as its digit run. */
  lemma {:induction false} DigitRunOfDigitsThen(d: string, rest: string)
    requires AllDigits(d)
    requires |rest| > 0 ==> !IsDigit(rest[0])
    ensures DigitRun(d + rest) == |d|
    decreases |d|
  {
    if |d| > 0 {
      assert (d + rest)[1..] == d[1..] + rest;
      DigitRunOfDigitsThen(d[1..], rest);
    }
  }

  /** The unsigned digits of a rendering, followed by non-digit text, are
      read back as the number rendered. */
  lemma ReadDigitsOfShowNat(m: nat, rest: string)
    requires |rest| > 0 ==> !IsDigit(rest[0])
    ensures var body := ShowNat(m) + rest;
            DigitRun(body) == |ShowNat(m)| && DigitsValue(body[..DigitRun(body)]) == m
  {
    var d := ShowNat(m);
    DigitRunOfDigitsThen(d, rest);
    DigitsValueOfShowNat(m);
    assert (d + rest)[..|d|] == d;
  }

  /** `parseInt` reads back what `String(n)` wrote, even when the digits are
      followed by text that does not start with a digit. */
  lemma ParseIntReadsShowInt(n: int, rest: string)
    requires |rest| > 0 ==> !IsDigit(rest[0])
    ensures ParseInt10(ShowInt(n) + rest) == Some(n)
  {
    var m: nat := if n < 0 then -n else n;
    var d := ShowNat(m);
    var s := ShowInt(n) + rest;
    ReadDigitsOfShowNat(m, rest);
    if n < 0 {
      assert s == "-" + (d + rest);
      assert LeadingSpaces(s) == 0;
      assert TrimStart(s) == s;
      assert s[1..] == d + rest;
    } else {
      assert s == d + rest;
      assert LeadingSpaces(s) == 0;
      assert TrimStart(s) == s;
    }
  }

  /* ---------------------------------------------------------------------- */
  /* E-mail shape                                                            */
  /* ---------------------------------------------------------------------- */

  function CountChar(s: string, c: char): (n: nat)
    ensures n <= |s|
    ensures n == 0 <==> c !in s
  {
    if |s| == 0 then 0 else (if s[0] == c then 1 else 0) + CountChar(s[1..], c)
  }

  /** Index of the first occurrence of `c` in `s`, or `|s|` when absent. */
  function IndexOf(s: string, c: char): (k: nat)
    ensures k <= |s|
    ensures k < |s| ==> s[k] == c
    ensures c !in s[..k]
  {
    if |s| == 0 then 0 else if s[0] == c then 0 else 1 + IndexOf(s[1..], c)
  }

  /** The shape the User model's `isEmail` validation asks of an address:
      one `@`, a non-empty local part, a dotted domain with non-empty first
      and last labels, and no whitespace. */
  predicate EmailShaped(s: string) {
    var k := IndexOf(s, '@');
    && CountChar(s, '@') == 1
    && (forall i :: 0 <= i < |s| ==> !IsJsSpace(s[i]))
    && 0 < k < |s| - 1
    && var domain := s[k + 1..];
       '.' in domain && domain[0] != '.' && domain[|domain| - 1] != '.'
  }
}

=== FILE: workflow.dfy ===
/** The application as a whole: every state-changing request of the
    modelled handlers, dispatched through the guard the application mounts
    in front of its router, and the properties that hold along any sequence of them —
    the store stays well formed, a request has a reviewer exactly when it
    has left `submitted`, addresses stay unique, and a request only moves
    forward: its reviewer is never replaced, a decision is final, and a
    payment once confirmed stays confirmed. */
module Workflow {
  import opened Wrappers
  import opened Domain
  import opened Guards
  import opened Officer
  import opened Citizen
  import opened Auth
  import opened Text

  /** The state-changing requests of the modelled routers. */
  datatype Action =
    | ApplyFor(serviceId: Option<Id>, file: Option<Upload>, description: string, now: nat)
    | ConfirmPay(requestId: Id)
    | OpenRequest(requestId: Id)
    | SetStatus(requestId: Id, target: string)
    | RegisterAccount(form: RegisterForm)
    | RegisterCitizen(name: string, email: string, password: string, departmentId: Option<int>)
    | Forgot(email: string, token: string, now: nat)
    | Reset(token: string, password: string, now: nat)
    | EditOfficerProfile(name: string, email: string, jobTitle: string)

  /** The router each request is sent to. */
  function AreaOf(a: Action): Area {
    match a
    case ApplyFor(_, _, _, _) => CitizenArea
    case ConfirmPay(_) => CitizenArea
    case RegisterCitizen(_, _, _, _) => CitizenArea
    case OpenRequest(_) => OfficerArea
    case SetStatus(_, _) => OfficerArea
    case EditOfficerProfile(_, _, _) => OfficerArea
    case RegisterAccount(_) => AuthArea
    case Forgot(_, _, _) => AuthArea
    case Reset(_, _, _) => AuthArea
  }

  /** The store after one request. A request the mount refuses changes
      nothing; otherwise the router's handler runs. A forgot-password token
      always comes from the random source, which only makes reset tokens. */
  function Step(st: Store, s: Option<Session>, a: Action): Store {
    if !MountAdmits(AreaOf(a), s) then st
    else match a
      case ApplyFor(sid, file, description, now) => Citizen.Apply(st, s, sid, file, description, now).store
      case ConfirmPay(rid) => ConfirmPayment(st, s, rid).store
      case RegisterCitizen(name, email, password, dept) => Citizen.Register(st, name, email, password, dept).store
      case OpenRequest(rid) => Open(st, s, rid).store
      case SetStatus(rid, target) => UpdateStatus(st, s, rid, target).store
      case RegisterAccount(f) => Auth.Register(st, f).store
      case Forgot(email, token, now) =>
        if IsResetToken(token) then ForgotPassword(st, email, token, now).store else st
      case Reset(token, password, now) => ResetPassword(st, token, password, now).store
      case EditOfficerProfile(name, email, jobTitle) => EditProfile(st, s, name, email, jobTitle).store
  }

  /** One request of the trace: who sends it, and what. */
  datatype Event = Event(session: Option<Session>, action: Action)

  /** The store after a sequence of requests, one after the other. */
  function Run(st: Store, events: seq<Event>): Store
    decreases |events|
  {
    if |events| == 0 then st
    else Run(Step(st, events[0].session, events[0].action), events[1..])
  }

  /** The invariants every reachable store keeps. */
  ghost predicate Invariant(st: Store) {
    WellFormed(st) && ClaimConsistent(st) && EmailsUnique(st.users)
  }

  /** How a request may change between two stores. */
  ghost predicate RequestEvolves(r: Request, r': Request) {
    && r'.id == r.id && r'.citizenId == r.citizenId && r'.serviceId == r.serviceId
    && r'.description == r.description && r'.paymentAmount == r.paymentAmount
    && r'.createdAt == r.createdAt
    && (r.reviewedBy.Some? ==> r'.reviewedBy == r.reviewedBy)
    && (IsTerminal(r.status) ==> r'.status == r.status)
    && (r.status != Submitted ==> r'.status != Submitted)
    && (r.paymentStatus == Paid ==> r'.paymentStatus == Paid)
  }

  /** How the store may change: no row is ever deleted, requests only move
      forward, and an account keeps its role. (An officer may change their
      address, so an account does not keep its address.) */
  ghost predicate Evolves(st: Store, st': Store) {
    && (forall k :: k in st.requests ==> k in st'.requests && RequestEvolves(st.requests[k], st'.requests[k]))
    && (forall k :: k in st.users ==> k in st'.users && st'.users[k].role == st.users[k].role)
    && st.documents.Keys <= st'.documents.Keys
  }

  lemma EvolvesReflexive(st: Store)
    ensures Evolves(st, st)
  {
  }

  /** Evolution composes, so it holds between any two points of a trace. */
  lemma EvolvesTransitive(st1: Store, st2: Store, st3: Store)
    requires Evolves(st1, st2) && Evolves(st2, st3)
    ensures Evolves(st1, st3)
  {
    forall k | k in st1.requests
      ensures k in st3.requests && RequestEvolves(st1.requests[k], st3.requests[k])
    {
      assert RequestEvolves(st1.requests[k], st2.requests[k]);
      assert RequestEvolves(st2.requests[k], st3.requests[k]);
    }
  }

  /* ---------------------------------------------------------------------- */
  /* The three kinds of write the handlers make                              */
  /* ---------------------------------------------------------------------- */

  /** Rewriting one request, forward and with a reviewer exactly when it has
      left `submitted`. */
  lemma RewriteRequestPreserves(st: Store, k: Id, r': Request)
    requires Invariant(st) && k in st.requests
    requires RequestEvolves(st.requests[k], r')
    requires r'.reviewedBy.Some? ==> r'.reviewedBy.value in st.users
    requires r'.reviewedBy.None? <==> r'.status == Submitted
    ensures var st' := st.(requests := st.requests[k := r']);
            Invariant(st') && Evolves(st, st')
  {
  }

  /** Rewriting one account without touching its id, address or role. */
  lemma RewriteUserPreserves(st: Store, k: Id, u': User)
    requires Invariant(st) && k in st.users
    requires u'.id == k && u'.email == st.users[k].email && u'.role == st.users[k].role
    ensures var st' := st.(users := st.users[k := u']);
            Invariant(st') && Evolves(st, st')
  {
    var st' := st.(users := st.users[k := u']);
    assert forall a, b :: a in st'.users && b in st'.users && st'.users[a].email == st'.users[b].email ==>
             st.users[a].email == st.users[b].email;
  }

  /** Adding an account under the next id with an address nobody has. */
  lemma AddUserPreserves(st: Store, u: User)
    requires Invariant(st)
    requires u.id == st.nextUserId && u.id !in st.users
    requires forall k :: k in st.users ==> st.users[k].email != u.email
    ensures var st' := st.(users := st.users[u.id := u], nextUserId := st.nextUserId + 1);
            Invariant(st') && Evolves(st, st')
  {
    AddUserKeepsInvariants(st, u);
  }

  /* ---------------------------------------------------------------------- */
  /* One lemma per handler                                                   */
  /* ---------------------------------------------------------------------- */

  /** Adding a submitted, unreviewed request under the next id together
      with its document under the next document id. */
  lemma AddRequestPreserves(st: Store, r: Request, d: Document)
    requires Invariant(st)
    requires r.id == st.nextRequestId && r.id !in st.requests
    requires r.serviceId in st.services && r.citizenId in st.users
    requires r.reviewedBy.None? && r.status == Submitted
    requires st.nextDocumentId !in st.documents && d.requestId == r.id
    ensures var st' := st.(requests := st.requests[r.id := r], nextRequestId := st.nextRequestId + 1,
                           documents := st.documents[st.nextDocumentId := d],
                           nextDocumentId := st.nextDocumentId + 1);
            Invariant(st') && Evolves(st, st')
  {
  }

  lemma ApplyPreserves(st: Store, s: Option<Session>, sid: Option<Id>, file: Option<Upload>,
                       description: string, now: nat)
    requires Invariant(st)
    ensures var st' := Citizen.Apply(st, s, sid, file, description, now).store;
            Invariant(st') && Evolves(st, st')
  {
    var h := Citizen.Apply(st, s, sid, file, description, now);
    if h.outcome.Applied? {
      var rid := h.outcome.requestId;
      var r := h.store.requests[rid];
      assert r.id == rid by {
        assert r == NewRequest(rid, s.value.userId, sid.value, st.services[sid.value], Trim(description), now);
      }
      AddRequestPreserves(st, r, Document(rid, file.value.path, file.value.mimeType, file.value.originalName));
    } else {
      EvolvesReflexive(st);
    }
  }

  lemma ConfirmPreserves(st: Store, s: Option<Session>, rid: Id)
    requires Invariant(st)
    ensures var st' := ConfirmPayment(st, s, rid).store;
            Invariant(st') && Evolves(st, st')
  {
    if ConfirmPayment(st, s, rid).outcome.PaymentConfirmed? {
      RewriteRequestPreserves(st, rid, st.requests[rid].(paymentStatus := Paid));
    }
  }

  lemma OpenPreserves(st: Store, s: Option<Session>, rid: Id)
    requires Invariant(st)
    ensures var st' := Open(st, s, rid).store;
            Invariant(st') && Evolves(st, st')
  {
    var h := Open(st, s, rid);
    if h.outcome.Opened? && h.outcome.claimed {
      RewriteRequestPreserves(st, rid, h.outcome.request);
    }
  }

  lemma UpdatePreserves(st: Store, s: Option<Session>, rid: Id, target: string)
    requires Invariant(st)
    ensures var st' := UpdateStatus(st, s, rid, target).store;
            Invariant(st') && Evolves(st, st')
  {
    var h := UpdateStatus(st, s, rid, target);
    if h.outcome.Updated? {
      assert h.outcome.status != Submitted;
      RewriteRequestPreserves(st, rid, st.requests[rid].(status := h.outcome.status));
    }
  }

  lemma CitizenRegisterPreserves(st: Store, name: string, email: string, password: string, dept: Option<int>)
    requires Invariant(st)
    ensures var st' := Citizen.Register(st, name, email, password, dept).store;
            Invariant(st') && Evolves(st, st')
  {
    var h := Citizen.Register(st, name, email, password, dept);
    if h.outcome.CitizenRegistered? {
      AddUserPreserves(st, h.store.users[h.outcome.userId]);
    }
  }

  lemma AccountRegisterPreserves(st: Store, f: RegisterForm)
    requires Invariant(st)
    ensures var st' := Auth.Register(st, f).store;
            Invariant(st') && Evolves(st, st')
  {
    var h := Auth.Register(st, f);
    if h.outcome.Registered? {
      AddUserPreserves(st, NewUser(h.outcome.userId, f, FinalRole(f.role)));
    }
  }

  lemma ForgotPreserves(st: Store, email: string, token: string, now: nat)
    requires Invariant(st) && IsResetToken(token)
    ensures var st' := ForgotPassword(st, email, token, now).store;
            Invariant(st') && Evolves(st, st')
  {
    var h := ForgotPassword(st, email, token, now);
    if h.outcome.ResetLinkIssued? {
      var uid := h.outcome.userId;
      RewriteUserPreserves(st, uid, st.users[uid].(resetToken := Some(token),
                                                   resetTokenExpires := Some(now + ResetTokenLifetime)));
    }
  }

  lemma ProfilePreserves(st: Store, s: Option<Session>, name: string, email: string, jobTitle: string)
    requires Invariant(st)
    ensures var st' := EditProfile(st, s, name, email, jobTitle).store;
            Invariant(st') && Evolves(st, st')
  {
    EditProfileKeepsInvariants(st, s, name, email, jobTitle);
  }

  lemma ResetPreserves(st: Store, token: string, password: string, now: nat)
    requires Invariant(st)
    ensures var st' := ResetPassword(st, token, password, now).store;
            Invariant(st') && Evolves(st, st')
  {
    var h := ResetPassword(st, token, password, now);
    if h.outcome.PasswordChanged? {
      var uid := h.outcome.userId;
      RewriteUserPreserves(st, uid, st.users[uid].(password := Bcrypt(password),
                                                   resetToken := None, resetTokenExpires := None));
    }
  }

  /** Every request an actor can send keeps the invariants and only moves
      the store forward. */
  lemma StepPreserves(st: Store, s: Option<Session>, a: Action)
    requires Invariant(st)
    ensures Invariant(Step(st, s, a))
    ensures Evolves(st, Step(st, s, a))
  {
    if !MountAdmits(AreaOf(a), s) {
      EvolvesReflexive(st);
    } else {
      match a {
        case ApplyFor(sid, file, description, now) => ApplyPreserves(st, s, sid, file, description, now);
        case ConfirmPay(rid) => ConfirmPreserves(st, s, rid);
        case RegisterCitizen(name, email, password, dept) => CitizenRegisterPreserves(st, name, email, password, dept);
        case OpenRequest(rid) => OpenPreserves(st, s, rid);
        case SetStatus(rid, target) => UpdatePreserves(st, s, rid, target);
        case RegisterAccount(f) => AccountRegisterPreserves(st, f);
        case Forgot(email, token, now) =>
          if IsResetToken(token) {
            ForgotPreserves(st, email, token, now);
          } else {
            EvolvesReflexive(st);
          }
        case Reset(token, password, now) => ResetPreserves(st, token, password, now);
        case EditOfficerProfile(name, email, jobTitle) => ProfilePreserves(st, s, name, email, jobTitle);
      }
    }
  }

  /** The same along any sequence of requests from a store that keeps the
      invariants, such as the empty store. */
  lemma {:induction false} RunPreserves(st: Store, events: seq<Event>)
    requires Invariant(st)
    ensures Invariant(Run(st, events))
    ensures Evolves(st, Run(st, events))
    decreases |events|
  {
    if |events| == 0 {
      EvolvesReflexive(st);
    } else {
      var st1 := Step(st, events[0].session, events[0].action);
      StepPreserves(st, events[0].session, events[0].action);
      RunPreserves(st1, events[1..]);
      EvolvesTransitive(st, st1, Run(st1, events[1..]));
    }
  }

  /** A store without rows keeps the invariants. */
  lemma EmptyStoreKeepsInvariant(departments: set<Id>)
    ensures Invariant(Store(map[], map[], map[], departments, map[], 1, 1, 1))
  {
  }

  /* ---------------------------------------------------------------------- */
  /* Who changes a request                                                   */
  /* ---------------------------------------------------------------------- */

  /** The review state of a request — its status or its reviewer — differs. */
  predicate ReviewChanged(r: Request, r': Request) {
    r'.status != r.status || r'.reviewedBy != r.reviewedBy
  }

  /** Opening changes the review state of the opened request only, and only
      by a claim of an officer of its department. */
  lemma OpenMoves(st: Store, s: Option<Session>, rid: Id, k: Id)
    requires k in st.requests
    ensures var st' := Open(st, s, rid).store;
            && k in st'.requests
            && (ReviewChanged(st.requests[k], st'.requests[k]) ==>
                  && k == rid && EnsureOfficer(s)
                  && RequestDepartment(st, st.requests[k]).Some? && SameDepartment(st, s.value, st.requests[k])
                  && st'.requests[k].reviewedBy == Some(s.value.userId))
  {
  }

  /** A status update changes the review state of the updated request only,
      and only when an officer of its department who is its reviewer asks. */
  lemma UpdateMoves(st: Store, s: Option<Session>, rid: Id, target: string, k: Id)
    requires k in st.requests
    ensures var st' := UpdateStatus(st, s, rid, target).store;
            && k in st'.requests
            && (ReviewChanged(st.requests[k], st'.requests[k]) ==>
                  && k == rid && EnsureOfficer(s)
                  && RequestDepartment(st, st.requests[k]).Some? && SameDepartment(st, s.value, st.requests[k])
                  && st'.requests[k].reviewedBy == Some(s.value.userId))
  {
  }

  /** The citizen router's handlers leave the review state of every existing
      request as it is. */
  lemma CitizenLeavesReviewAlone(st: Store, s: Option<Session>, a: Action, k: Id)
    requires AreaOf(a) == CitizenArea && k in st.requests
    ensures k in Step(st, s, a).requests
    ensures !ReviewChanged(st.requests[k], Step(st, s, a).requests[k])
  {
    if MountAdmits(CitizenArea, s) {
      match a {
        case ApplyFor(sid, file, description, now) =>
          var h := Citizen.Apply(st, s, sid, file, description, now);
          if h.outcome.Applied? {
            assert h.store.requests[k] == st.requests[k];
          }
        case ConfirmPay(rid) =>
        case RegisterCitizen(name, email, password, dept) =>
      }
    }
  }

  /** The public router's handlers and the officer's profile edit write no
      request. */
  lemma AccountActionsLeaveRequestsAlone(st: Store, s: Option<Session>, a: Action)
    requires AreaOf(a) == AuthArea || a.EditOfficerProfile?
    ensures Step(st, s, a).requests == st.requests
  {
    if MountAdmits(AreaOf(a), s) {
      match a {
        case RegisterAccount(f) =>
        case Forgot(email, token, now) =>
        case Reset(token, password, now) =>
        case EditOfficerProfile(name, email, jobTitle) =>
      }
    }
  }

  /** Only an officer of the request's department changes its status or its
      reviewer, by opening it or updating it, and the request then has that
      officer as its reviewer. A head of department, a citizen or an
      anonymous actor never does. */
  lemma OnlyItsOfficerMovesARequest(st: Store, s: Option<Session>, a: Action, k: Id)
    requires k in st.requests
    ensures k in Step(st, s, a).requests
    ensures ReviewChanged(st.requests[k], Step(st, s, a).requests[k]) ==>
              && EnsureRole(s, Officer)
              && (a == OpenRequest(k) || (a.SetStatus? && a.requestId == k))
              && RequestDepartment(st, st.requests[k]).Some? && SameDepartment(st, s.value, st.requests[k])
              && Step(st, s, a).requests[k].reviewedBy == Some(s.value.userId)
  {
    if AreaOf(a) == CitizenArea {
      CitizenLeavesReviewAlone(st, s, a, k);
    } else if AreaOf(a) == AuthArea || a.EditOfficerProfile? {
      AccountActionsLeaveRequestsAlone(st, s, a);
    } else if MountAdmits(AreaOf(a), s) {
      if a.OpenRequest? {
        OpenMoves(st, s, a.requestId, k);
      } else {
        UpdateMoves(st, s, a.requestId, a.target, k);
      }
    }
  }

  /** A head of department changes nothing on any request. */
  lemma HeadNeverChangesRequests(st: Store, s: Option<Session>, a: Action)
    requires EnsureRole(s, HeadDepartment)
    ensures Step(st, s, a).requests == st.requests
  {
  }
}

=== FILE: wrappers.dfy ===
/** The optional value used wherever the portal's records and form fields may
    be null or absent. */
module Wrappers {

  datatype Option<+T> = None | Some(value: T) {

    /** Returns the value held in Some, or the given default when None. */
    function GetOr(default: T): T {
      match this
      case Some(v) => v
      case None => default
    }
  }
}
